=== FILE: README.md ===
# Parking-lot core, modelled in Dafny

A model of the core of a small parking-lot service with 15 numbered spaces.
Vehicles enter into a free space and leave. On exit they are charged under
a progressive tariff, and each exit writes one invoice to a history. The
history answers "recent invoices" and "revenue of a day" queries. A single
tariff row holds the prices and a night window. It is created with default
values the first time it is read and is updated field by field.

The model has eleven modules, one per concern of the program:

| file | module | what it models |
|---|---|---|
| `wrappers.dfy` | `Wrappers` | `Option` and `Result` |
| `text.dfy` | `Text` | Python's `str(int)`, `int(str)`, `split`, `strip`, `upper` |
| `clock.dfy` | `Clock` | timestamps, times of day, `strptime('%H:%M')`, `str(time)` |
| `pricing.dfy` | `Pricing` | the tariff record `ConfiguracionPrecios` and its defaults |
| `fare.dfy` | `Fare` | the fee engine `CalculadoraPrecios` |
| `vehicle_schema.dfy` | `VehicleSchema` | entry/exit request validation and plate normalisation |
| `config_schema.dfy` | `ConfigSchema` | tariff update validation (`HH:MM` check) |
| `config_service.dfy` | `ConfigService` | `ConfiguracionService`: read-or-create and partial update |
| `store.dfy` | `ParkingStore` | the three tables and the invariants every operation keeps |
| `vehicle_service.dfy` | `VehicleService` | `VehiculoService`: spaces, entry, exit, lookup |
| `ledger.dfy` | `Ledger` | invoice history and daily revenue |

Representation choices:

- Money is whole cents. The price columns are `Numeric(10, 2)`, so 0.50 is `50`.
- A `datetime` is a whole number of seconds, and a `time` is seconds since midnight.
  `Day(t) = t / 86400` and `TimeOf(t) = t % 86400`. Dafny's Euclidean `/` and `%`
  agree with Python's floor semantics for a positive divisor.
- Each table is a sequence in insertion order. Ids are auto-increment, starting at 1,
  and nothing is ever deleted, so a row's id is its position plus one.
- `.first()` on an unordered query is the first matching row in insertion order.
- The clock (`datetime.now()`) is a `now` parameter of every operation that reads it.
- An exception raised by the program is an `Err` value. A database commit is the new
  `Store` value the operation returns.

Places where the program's behaviour differs from its documentation. The model follows
the code in each case:

- A stay of under one whole minute, or an exit before the entry, costs 0. Its details
  are the time-error note (`calculadora_precios.py:28-29`). It is not a minimum charge.
- The night flat price `precio_nocturno` is stored, validated and rendered. No fee
  computation ever charges it. The 12-hour night rule in the docstring of
  `calcular_costo` is not implemented. The night classifier `_es_periodo_nocturno` is
  modelled, but nothing calls it.
- `formatear_tiempo` always writes `"{h}h {m}m"`. For example, 45 minutes is `"0h 45m"`
  and 60 minutes is `"1h 0m"`.
- At exactly 30 minutes, `calcular_costo` lists a zero-hour "additional hours" item.
  `_calcular_tarifa_diurna` does not. The totals agree (`Fare.FareMatchesDaytimeTariff`).
- The plate length bound (1..20) is checked on the raw text, before upper-casing and
  stripping. So `"   "` is accepted and becomes the empty plate
  (`VehicleSchema.BlankPlateExample`).
- The `HH:MM` validator reads each side with `int()`. That accepts signs, surrounding
  blanks and digit underscores, which the service's `strptime('%H:%M')` refuses. So
  `"+7:00"` passes validation and then fails in the update
  (`ConfigSchema.SchemaLooserThanStrptime`). The blanks `int()` skips are ASCII space,
  `\t\n\v\f\r` and the non-ASCII characters `str.isspace` accepts, but not the
  separators U+001C to U+001F, which `str.isspace` also accepts. So `"\x1c7:00"` is
  refused (`ConfigSchema.SeparatorPaddedHourRefused`).
- Looking up a vehicle or registering an exit reads the tariff, and that read inserts
  the default row when the table is empty. So a lookup is read-only only once a tariff
  row exists (`VehicleService.LookupIsReadOnly`).
- A failed tariff update still leaves the default row. That row was committed by the
  read before the time field failed to parse (`ConfigService.UpdateConfig`).

## Model

| member | source | states |
|---|---|---|
| Pricing.DefaultConfig | app/modelos/configuracion_precios.py:10-14 | the default row charges 50 cents per first half hour, 100 per additional hour and 1000 at night, with the night window 19:00 to 07:00 |
| Pricing.DefaultWindowWraps | app/modelos/configuracion_precios.py:13-14 | the default night window crosses midnight and its prices are non-negative |
| Pricing.ToDict | app/modelos/configuracion_precios.py:17-27 | `to_dict` copies id and the three prices and renders each time as an 8-character text |
| Pricing.ToDictRoundTrip | app/modelos/configuracion_precios.py:19-25 | the rendered dictionary reads back as the very same tariff row, so rendering loses no field |
| Clock.ParseClock | app/servicios/configuracion_service.py:40-44 | `strptime('%H:%M')` accepts only texts with exactly one colon, and yields a whole-minute time of day |
| Clock.ParseClockOfPadded | app/servicios/configuracion_service.py:40-44 | `strptime('%H:%M')` accepts every zero-padded `HH:MM` text and yields exactly the time it spells |
| Clock.ParseClockExamples | app/modelos/configuracion_precios.py:13-14 | the texts `"19:00"` and `"07:00"` of the default night bounds parse back to exactly those bounds |
| Clock.TimeToStringRoundTrip | app/modelos/configuracion_precios.py:24-25 | `str(time)` renders a time of day that parses back to the same time |
| Fare.CalculateFare | app/utils/calculadora_precios.py:25-62 | under one whole minute (or a negative stay) the fee is 0 with the time-error note; otherwise the minutes are the truncated elapsed minutes, under 30 the fee is the half-hour price alone, and from 30 it is the half-hour price plus the number of started hours after the first half hour times the hourly price, with that count characterised by the stay |
| Fare.FareCost | app/utils/calculadora_precios.py:50-55 | for a stay of a minute or more, the fee equals the half-hour price plus the hours after the first half hour, rounded up, times the hourly price |
| Fare.FareExamples | app/utils/calculadora_precios.py:36-62 | with the default tariff, 29 and 30 minutes cost 0.50, 31 and 90 minutes cost 1.50, 91 minutes cost 2.50, and 59 seconds cost nothing |
| Fare.AdditionalHoursMonotone | app/utils/calculadora_precios.py:51-52 | a longer stay is charged at least as many started hours |
| Fare.FareMonotone | app/utils/calculadora_precios.py:25-62 | with non-negative half-hour and hourly prices, a longer stay never costs less, including the step from a free stay under a minute to a charged one; every stay of a minute or more costs at least the half-hour price |
| Fare.DaytimeTariff | app/utils/calculadora_precios.py:97-128 | up to 30 minutes the total is the half-hour price with one item; beyond, a second item charges the started hours after the first half hour, with that count characterised by the minutes |
| Fare.FareMatchesDaytimeTariff | app/utils/calculadora_precios.py:97-128 | `calcular_costo` and `_calcular_tarifa_diurna` agree on the total for every stay of a minute or more, and on the breakdown except at exactly 30 minutes, where the former adds a zero-hour item |
| Fare.ClassifyNight | app/utils/calculadora_precios.py:65-94 | a moment is at night iff its time of day lies in [start, end), read across midnight when start > end; the reported end of period has the end time and, at night, lies within the next 24 hours; the end of period falls on the moment's day, or the next day exactly when the window wraps midnight and the moment is after its start; a start of period is reported exactly when the moment's time of day is before the start and not inside a wrapped window's morning part, which only happens by day; it then lies later that same day |
| Fare.NightIsCircularInterval | app/utils/calculadora_precios.py:72-86 | both branches of the classifier are one rule: the clockwise distance from the start is shorter than the window's length, modulo a day |
| Fare.EmptyWindowNeverNight | app/utils/calculadora_precios.py:84-86 | a window whose start equals its end never contains any moment |
| Fare.WrappedStartOnlyByDay | app/utils/calculadora_precios.py:80-93 | in a window crossing midnight, the period start is reported exactly when the time of day is between the end and the start |
| Fare.DefaultWindowExamples | app/utils/calculadora_precios.py:72-81 | with the default window, 23:00 and 03:00 are night and noon is not; at 03:00 the period start lies in the past and is not reported |
| Fare.FormatDuration | app/utils/calculadora_precios.py:131-135 | the `"{h}h {m}m"` text reads back as the same number of minutes, for every integer, under a reader that accepts only numerals as `str()` writes them (no leading zeros, no `-0`); it is the only text that reads back as those minutes |
| Fare.FormatDurationExamples | app/utils/calculadora_precios.py:131-135 | both fields are always written: 0 is "0h 0m", 45 is "0h 45m", 60 is "1h 0m", 90 is "1h 30m" |
| VehicleSchema.NormalizePlate | app/esquemas/vehiculo_schema.py:10-13 | the normalised plate is the upper-cased input with its surrounding whitespace cut: character by character it is the upper case of the input's slice starting at `PlateStart`, everything outside that slice is whitespace, and the plate has no whitespace at either end and no lower-case ASCII letter |
| VehicleSchema.NormalizeCanonical | app/esquemas/vehiculo_schema.py:10-13 | a plate with no blanks and no lower-case letters is left unchanged |
| VehicleSchema.NormalizePlateIdempotent | app/servicios/vehiculo_service.py:50 | normalising an already normalised plate, as the service does again, changes nothing |
| VehicleSchema.ValidateEntry | app/esquemas/vehiculo_schema.py:6-20 | an entry request is accepted iff the raw plate has 1..20 characters and the space is in 1..15; every failing field is reported; the night flag defaults to false; an accepted plate is normalised |
| VehicleSchema.ValidateExit | app/esquemas/vehiculo_schema.py:22-29 | an exit request is accepted iff the raw plate has 1..20 characters, and yields the normalised plate |
| VehicleSchema.BlankPlateExample | app/esquemas/vehiculo_schema.py:8-13 | a plate of three blanks passes the length check and becomes the empty plate |
| VehicleSchema.MixedCasePlateExample | app/esquemas/vehiculo_schema.py:10-13 | " abc1 " normalises to "ABC1" |
| VehicleSchema.EntryBoundsExamples | app/esquemas/vehiculo_schema.py:8-18 | the empty plate, space 0 and space 16 are refused, with both errors reported together; space 15 is accepted |
| ConfigSchema.ValidateTimeFormat | app/esquemas/configuracion_schema.py:14-27 | an absent time passes; a given one passes, unchanged, iff it splits at `:` into exactly two parts that `int()` reads as an hour in 0..23 and a minute in 0..59, `int()` skipping only its own set of surrounding blanks; a text with any other number of colons is refused |
| ConfigSchema.StrptimeAcceptedPassesSchema | app/esquemas/configuracion_schema.py:19-24 | every text `strptime('%H:%M')` accepts passes the validator, which reads the same hour and minute from it |
| ConfigSchema.SeparatorPaddedHourRefused | app/esquemas/configuracion_schema.py:22-26 | `"\x1c7:00"` is refused with the format error, because `int()` does not skip U+001C although `str.isspace` accepts it |
| ConfigSchema.SchemaLooserThanStrptime | app/esquemas/configuracion_schema.py:22 | "+7:00" passes the validator but is refused by `strptime('%H:%M')` |
| ConfigSchema.TimeFormatRejections | app/esquemas/configuracion_schema.py:19-21 | "0700" (no colon) and "1:2:3" (two colons) are refused |
| ConfigSchema.ValidatePatch | app/esquemas/configuracion_schema.py:8-27 | an update is accepted iff every given price is non-negative and every given time passes the `HH:MM` check; each field is in the reported error list iff that field fails its check; an accepted update is passed on unchanged |
| ConfigService.LatestIndex | app/servicios/configuracion_service.py:11 | the row picked has the greatest id in the table |
| ConfigService.LatestIsLast | app/servicios/configuracion_service.py:11 | with auto-increment ids the greatest-id row is the last one inserted |
| ConfigService.GetConfig | app/servicios/configuracion_service.py:9-24 | a non-empty table is returned unchanged along with its greatest-id row; an empty table gains exactly the default row with id 1, which is returned |
| ConfigService.GetConfigStable | app/servicios/configuracion_service.py:9-24 | reading twice gives the same row and table as reading once |
| ConfigService.UpdateConfig | app/servicios/configuracion_service.py:27-48 | the update fails iff a given time is refused by `strptime`, and then leaves the table as the read left it; otherwise every given field is replaced (times parsed), every absent field is kept, the id is kept and only the latest row changes |
| ConfigService.UpdateWellNumbered | app/servicios/configuracion_service.py:27-48 | an update keeps ids auto-increment in insertion order |
| ConfigService.AcceptedUpdateKeepsNonNegative | app/esquemas/configuracion_schema.py:8-10 | a table of non-negative tariffs stays one after an update the schema accepted, including the default row an empty table gains, so the tariff in force meets the fee's monotonicity premise |
| ConfigService.UpdateThenGet | app/servicios/configuracion_service.py:46-48 | reading after a successful update returns the updated row |
| ConfigService.EmptyPatchChangesNothing | app/servicios/configuracion_service.py:31-48 | an update that gives no field succeeds and changes neither the row nor the table |
| ConfigService.UpdateNightStartRoundTrip | app/servicios/configuracion_service.py:40-41 | after changing only the night start, the row read back differs from the previous one only in that field, which holds the parsed time |
| ParkingStore.FindBySpace | app/servicios/vehiculo_service.py:57-60 | finds the first active record in the space, and finds none iff no active record is there |
| ParkingStore.FindByPlate | app/servicios/vehiculo_service.py:106-109 | finds the first active record with the plate, and finds none iff no active record carries it |
| ParkingStore.EmptyStoreValid | app/servicios/vehiculo_service.py:35-151 | the empty store satisfies every invariant the operations keep |
| ParkingStore.FindBySpaceUnique | app/servicios/vehiculo_service.py:57-60 | under the invariants, the active record in a space is the only one there |
| ParkingStore.FindByPlateUnique | app/servicios/vehiculo_service.py:106-109 | under the invariants, the active record with a plate is the only one with it |
| VehicleService.ViewOf | app/servicios/vehiculo_service.py:24-30 | a space's view is occupied iff an active record is in it, and then shows that record's plate and entry time; a free space shows neither |
| VehicleService.Spaces | app/servicios/vehiculo_service.py:13-32 | exactly 15 views numbered 1..15 in order, each occupied iff an active record is in that space, showing its plate and entry time; a free space shows no plate and no entry time |
| VehicleService.RegisterEntry | app/servicios/vehiculo_service.py:50-86 | the guards apply in order (space in 1..15, space free, plate not parked elsewhere, with the space it is in); entry succeeds iff all pass, and then appends exactly one active record with the next id, the normalised plate and entry time `now` |
| VehicleService.EntryPreservesValid | app/servicios/vehiculo_service.py:56-84 | an entry keeps the invariants: at most one active record per space and per plate, and one invoice per finalised record |
| VehicleService.EntryShowsInSpaces | app/servicios/vehiculo_service.py:75-84 | right after an entry, the space's view shows the normalised plate and entry time |
| VehicleService.EntryTwiceFails | app/servicios/vehiculo_service.py:57-72 | a second entry into the same space is refused as occupied, and one with the same plate into any valid space is refused |
| VehicleService.RegisterExit | app/servicios/vehiculo_service.py:103-151 | exit fails iff the plate has no active record; otherwise that record is finalised with exit time `now` and the fee under the latest tariff, and exactly one invoice with the next id copies its data, generated at `now`; the time text is the formatted minutes |
| VehicleService.ExitFailureChangesNothing | app/servicios/vehiculo_service.py:111-112 | a plate that is not parked is refused as not found, and nothing is written |
| VehicleService.ExitPreservesValid | app/servicios/vehiculo_service.py:115-145 | an exit keeps every invariant |
| VehicleService.FinalizeKeepsLedger | app/servicios/vehiculo_service.py:126-145 | finalising an active record and appending its invoice keeps exactly one invoice per finalised record, each matching its record |
| VehicleService.ExitFreesPlateAndSpace | app/servicios/vehiculo_service.py:126-128 | after an exit, the plate is no longer parked and its space shows free |
| VehicleService.EntryThenExit | app/servicios/vehiculo_service.py:75-138 | an entry at one moment followed by an exit of the same plate at another succeeds, finalises the new record, charges the fee for the stay between the two moments under the tariff in force, and frees the space |
| VehicleService.LookupVehicle | app/servicios/vehiculo_service.py:168-191 | the lookup fails iff the plate has no active record; otherwise it returns the record found by plate, its fee, fee breakdown and elapsed-time text under the tariff in force (the text reading back as the elapsed minutes), and writes nothing except the default tariff row on an empty tariff table |
| VehicleService.LookupIsReadOnly | app/servicios/vehiculo_service.py:168-191 | once a tariff row exists, a lookup of a parked plate leaves the whole store unchanged |
| VehicleService.EstimateMatchesExit | app/servicios/vehiculo_service.py:179-191 | the estimate at a moment is the fee and time text an exit at that moment would charge and show |
| VehicleService.LookupPreservesValid | app/servicios/vehiculo_service.py:168-191 | a lookup keeps every invariant |
| Ledger.OnDayMembers | app/servicios/vehiculo_service.py:235-237 | the day filter keeps exactly the invoices generated on that day |
| Ledger.DailyRevenue | app/servicios/vehiculo_service.py:227-243 | the report's day is the given date or else today's; its count is the number of invoices generated that day and its revenue the sum of their costs |
| Ledger.EmptyDayReport | app/servicios/vehiculo_service.py:239-243 | a day without invoices reports zero vehicles and zero revenue |
| Ledger.ExitAddsToDailyReport | app/servicios/vehiculo_service.py:131-145 | an exit adds one vehicle and its fee to the report of the day of the exit and leaves every other day's invoices unchanged |
| Ledger.SortNewestFirst | app/servicios/vehiculo_service.py:212 | the ordering is a permutation with generation times never increasing |
| Ledger.History | app/servicios/vehiculo_service.py:194-213 | returns min(limit, matching) invoices of the date filter, newest first, drawn from the filtered ledger, and every one left out is no newer than every one returned; an omitted limit is 50 |
| Ledger.PrefixOfNewestFirst | app/servicios/vehiculo_service.py:212 | cutting a newest-first list at the limit keeps a newest-first head that is no older than the dropped tail |

## Left out

- HTTP routers, response schemas and invoice schemas (`app/routers/*`, `factura_schema.py`) are not part of this model. They only translate requests and responses.
- The entry router calls `registrar_entrada` with a fourth argument, the night flag, but the service takes three. That call would raise `TypeError`. The model follows the service signature, and the night flag stops at `VehicleSchema.ValidateEntry`.
- The night flat price is never charged by the code, so no fee member charges it. The night classifier is modelled on its own.
- `app/config.py`, the database engine and sessions, and `calculo_service.py` are not modelled. The last is an alias of the fee engine, and its calls go straight to `Fare`.
- The `VehiculoEstacionado` and `HistorialFactura` model files are not part of this model. Their fields are taken from the service's use of them. The invoice generation time is taken to be the exit time. Which clock fills `fecha_generacion` is therefore unknown here. If it is `datetime.utcnow`, as for the tariff row (app/modelos/configuracion_precios.py:15), the day a report filters on (app/servicios/vehiculo_service.py:230-237) is a UTC day. An exit shortly before or after midnight could then land on a different report day than `Ledger.ExitAddsToDailyReport` states.
- Floating point is not modelled. That covers `float(...)`, `round(cost, 2)` and the `:.2f` formatting of amounts. Prices are exact cents, so the fee is exact; in Python, float rounding could differ by a cent on large values. The charge details are structured items (`Fare.ChargeLine`), not the formatted text joined by `" | "`.
- `Numeric(10, 2)` width and sub-cent input are not modelled. Amounts are unbounded cents, and the schema's `Decimal` prices are assumed to carry at most two decimals.
- Parsing the `YYYY-MM-DD` date of the history and report queries is not modelled. The date is given as a day number. A malformed date, which raises in the source, is therefore not represented. An empty date string means no filter (`None`).
- The tariff row's `actualizado_en` timestamp is not modelled. The row sets it on the client from `datetime.utcnow` on insert and on every update (app/modelos/configuracion_precios.py:15), and `to_dict` returns its `isoformat()` under the key `actualizado_en` (line 26). `Pricing.ToDict` and `Pricing.ConfigDict` omit that key. The `creado_en` field of the vehicle response (app/esquemas/vehiculo_schema.py:40) belongs to the response schemas, which are not part of this model.
- Time zones and microseconds are not modelled. Timestamps are whole seconds of naive local time, and `isoformat()` of the entry time is shown as the timestamp itself.
- Concurrency is not modelled. Two simultaneous entries could both pass the free-space check, and the model runs operations one at a time.
- Ledger.History: the order among invoices generated at the same second is left unspecified, as SQL leaves it. A negative `limite` is not modelled (`limit` is a `nat`). An omitted `limite` is `None`, and the default `limite = 50` (app/servicios/vehiculo_service.py:194) then applies through `Ledger.DefaultHistoryLimit`.
- Text.Upper: upper-casing is modelled on ASCII letters only. `int()` (`Text.PyInt`) and the `\d` of `strptime`'s `%H`/`%M` patterns (`Clock.ClockField`) are modelled on ASCII digits only; Python also folds other Unicode letters and accepts other Unicode decimal digits.

=== FILE: clock.dfy ===
/**
 * Naive local timestamps as whole seconds, times of day as seconds since
 * midnight, and the `HH:MM` / `HH:MM:SS` texts the program reads and writes.
 */
module Clock {
  import opened Wrappers
  import opened Text

  const SecondsPerDay: int := 86400

  /** A `datetime`: seconds since an arbitrary midnight, naive local time. */
  type Timestamp = int

  /** A `time` value: seconds since midnight. */
  type TimeOfDay = t: int | 0 <= t < 86400

  /** `moment.date()` as a day number. */
  function Day(t: Timestamp): int {
    t / SecondsPerDay
  }

  /** `moment.time()`. */
  function TimeOf(t: Timestamp): TimeOfDay {
    t % SecondsPerDay
  }

  /** `datetime.combine(day, tod)`. */
  function Combine(day: int, tod: TimeOfDay): (t: Timestamp)
    ensures Day(t) == day && TimeOf(t) == tod
  {
    day * SecondsPerDay + tod
  }

  /** `time(hour, minute)`. */
  function HourMinute(hour: int, minute: int): TimeOfDay
    requires 0 <= hour < 24 && 0 <= minute < 60
  {
    hour * 3600 + minute * 60
  }

  // ---------------------------------------------------------------------
  // datetime.strptime(s, '%H:%M').time()
  // ---------------------------------------------------------------------

  /**
   * One field of `strptime`: one or two digits whose value is at most `max`,
   * as the regular expressions `2[0-3]|[0-1]\d|\d` for `%H` and
   * `[0-5]\d|\d` for `%M` read them, modelled on ASCII digits only.
   */
  function ClockField(s: string, max: nat): (r: Option<nat>)
    ensures r.Some? ==> r.value <= max
  {
    if 1 <= |s| <= 2 && AllDigits(s) && DigitsValue(s) <= max then Some(DigitsValue(s)) else None
  }

  /**
   * `datetime.strptime(s, '%H:%M').time()`; `None` stands for the `ValueError`
   * it raises on anything else, including unconverted trailing text.
   */
  function ParseClock(s: string): (r: Option<TimeOfDay>)
    ensures r.Some? ==> r.value % 60 == 0
    ensures r.Some? ==> Count(s, ':') == 1
  {
    var parts := Split(s, ':');
    if |parts| != 2 then None
    else
      match (ClockField(parts[0], 23), ClockField(parts[1], 59))
      case (Some(h), Some(m)) => Some(HourMinute(h, m))
      case _ => None
  }

  /**
   * Every whole-minute time of day, written as zero-padded `HH:MM`, is
   * accepted and read back as that time.
   */
  lemma ParseClockOfPadded(t: TimeOfDay)
    requires t % 60 == 0
    ensures ParseClock(Pad2(t / 3600) + ":" + Pad2(t % 3600 / 60)) == Some(t)
  {
    var hs := Pad2(t / 3600);
    var ms := Pad2(t % 3600 / 60);
    NoColonInDigits(hs);
    NoColonInDigits(ms);
    SplitNoSep(hs, ':');
    SplitAppendNoSep(hs, ms, ':');
    assert hs + ":" + ms == hs + [':'] + ms;
    assert ClockField(hs, 23) == Some(t / 3600);
    assert ClockField(ms, 59) == Some(t % 3600 / 60);
    WholeMinute(t);
  }

  lemma NoColonInDigits(s: string)
    requires AllDigits(s)
    ensures ':' !in s
  {
  }

  lemma WholeMinute(t: TimeOfDay)
    requires t % 60 == 0
    ensures HourMinute(t / 3600, t % 3600 / 60) == t
  {
    var r := t % 3600;
    assert t == 3600 * (t / 3600) + r;
    assert r == 60 * (r / 60) + r % 60;
    assert r % 60 == 0 by {
      assert t == 60 * (60 * (t / 3600) + r / 60) + r % 60;
    }
  }

  /** The default night window's texts are accepted: "19:00" and "07:00". */
  lemma ParseClockExamples()
    ensures ParseClock("19:00") == Some(HourMinute(19, 0))
    ensures ParseClock("07:00") == Some(HourMinute(7, 0))
  {
    PaddedText(19);
    assert Pad2(19) == "19";
    assert Pad2(19) + ":00" == "19:00";
    PaddedText(7);
    assert Pad2(7) == "07";
    assert Pad2(7) + ":00" == "07:00";
  }

  lemma PaddedText(h: nat)
    requires h < 24
    ensures ParseClock(Pad2(h) + ":00") == Some(HourMinute(h, 0))
  {
    var t := HourMinute(h, 0);
    assert t / 3600 == h && t % 3600 / 60 == 0;
    assert Pad2(0) == "00";
    assert Pad2(h) + ":" + Pad2(0) == Pad2(h) + ":00";
    ParseClockOfPadded(t);
  }

  // ---------------------------------------------------------------------
  // str(time): "HH:MM:SS"
  // ---------------------------------------------------------------------

  /** Two-digit zero-padded numeral. */
  function Pad2(n: nat): (s: string)
    requires n < 100
    ensures |s| == 2 && AllDigits(s) && DigitsValue(s) == n
  {
    var s := [DigitChar(n / 10), DigitChar(n % 10)];
    assert s[..1] == [DigitChar(n / 10)];
    assert s[..1][..0] == [];
    assert DigitsValue(s[..1]) == n / 10;
    s
  }

  /** `str(t)` for a time without microseconds. */
  function TimeToString(t: TimeOfDay): (s: string)
    ensures |s| == 8 && s[2] == ':' && s[5] == ':'
  {
    Pad2(t / 3600) + ":" + Pad2(t % 3600 / 60) + ":" + Pad2(t % 60)
  }

  /** Reads an `HH:MM:SS` text back into a time of day. */
  function ParseTimeString(s: string): Option<TimeOfDay> {
    if |s| == 8 && s[2] == ':' && s[5] == ':'
      && AllDigits(s[0..2]) && AllDigits(s[3..5]) && AllDigits(s[6..8])
      && DigitsValue(s[0..2]) < 24 && DigitsValue(s[3..5]) < 60 && DigitsValue(s[6..8]) < 60
    then Some(DigitsValue(s[0..2]) * 3600 + DigitsValue(s[3..5]) * 60 + DigitsValue(s[6..8]))
    else None
  }

  /** `str(time)` loses nothing: its text reads back as the same time of day. */
  lemma TimeToStringRoundTrip(t: TimeOfDay)
    ensures ParseTimeString(TimeToString(t)) == Some(t)
  {
    var s := TimeToString(t);
    assert s[0..2] == Pad2(t / 3600);
    assert s[3..5] == Pad2(t % 3600 / 60);
    assert s[6..8] == Pad2(t % 60);
  }
}

=== FILE: config_schema.dfy ===
/**
 * Request schema for tariff updates (`ConfiguracionBase`): optional
 * non-negative prices and the `HH:MM` check on the night-window times.
 */
module ConfigSchema {
  import opened Wrappers
  import opened Text
  import opened Clock
  import opened Pricing

  /**
   * A partial update. `None` is a key that is absent or null; the schema's
   * `dict(exclude_none=True)` makes the two indistinguishable.
   */
  datatype Patch = Patch(
    halfHourRate: Option<Cents>,
    additionalHourRate: Option<Cents>,
    nightRate: Option<Cents>,
    nightStart: Option<string>,
    nightEnd: Option<string>
  )

  const EmptyPatch: Patch := Patch(None, None, None, None, None)

  /**
   * The single rejection `validar_formato_hora` reports: the bare `except`
   * re-raises every inner failure as "Formato de hora inválido, use HH:MM".
   */
  datatype TimeFormatError = InvalidTimeFormat

  /** Both `:`-separated parts read by `int()` as an hour below 24 and a minute below 60. */
  predicate PassesHourCheck(s: string) {
    var parts := Split(s, ':');
    && |parts| == 2
    && PyInt(parts[0]).Some? && PyInt(parts[1]).Some?
    && 0 <= PyInt(parts[0]).value < 24
    && 0 <= PyInt(parts[1]).value < 60
  }

  /**
   * `validar_formato_hora`: `None` passes; a text passes unchanged exactly
   * when it has one `:` and both sides read as an in-range hour and minute.
   */
  function ValidateTimeFormat(v: Option<string>): (r: Result<Option<string>, TimeFormatError>)
    ensures r.Ok? ==> r.value == v
    ensures v.None? ==> r.Ok?
    ensures v.Some? && Count(v.value, ':') != 1 ==> r.Err?
    ensures v.Some? ==>
      var parts := Split(v.value, ':');
      (r.Ok? <==> |parts| == 2 && PyInt(parts[0]).Some? && PyInt(parts[1]).Some?
                  && 0 <= PyInt(parts[0]).value < 24 && 0 <= PyInt(parts[1]).value < 60)
  {
    match v
    case None => Ok(None)
    case Some(s) => if PassesHourCheck(s) then Ok(v) else Err(InvalidTimeFormat)
  }

  lemma ClockFieldIsPyInt(s: string, max: nat)
    requires ClockField(s, max).Some?
    ensures PyInt(s) == Some(ClockField(s, max).value as int)
  {
    PyIntOfNumeral(s);
  }

  /**
   * Every text that `strptime('%H:%M')` accepts also passes the schema, and
   * both read the same hour and minute from it.
   */
  lemma StrptimeAcceptedPassesSchema(s: string)
    requires ParseClock(s).Some?
    ensures ValidateTimeFormat(Some(s)) == Ok(Some(s))
    ensures var parts := Split(s, ':');
      ParseClock(s).value == HourMinute(PyInt(parts[0]).value, PyInt(parts[1]).value)
  {
    var parts := Split(s, ':');
    ClockFieldIsPyInt(parts[0], 23);
    ClockFieldIsPyInt(parts[1], 59);
  }

  /**
   * The schema is looser than the service's `strptime`: `int()` admits a sign,
   * surrounding blanks and digit underscores, so "+7:00" passes validation and
   * is then refused by the service.
   */
  lemma SchemaLooserThanStrptime()
    ensures ValidateTimeFormat(Some("+7:00")).Ok?
    ensures ParseClock("+7:00").None?
  {
    SignedPassesHourCheck();
    SignedRefusedByStrptime();
  }

  /**
   * `int()` does not skip the separator U+001C, though `str.isspace` accepts
   * it, so an hour written after one is refused.
   */
  lemma SeparatorPaddedHourRefused()
    ensures ValidateTimeFormat(Some("\U{1C}7:00")) == Err(InvalidTimeFormat)
  {
    var h := "\U{1C}7";
    assert ':' !in h && ':' !in "00";
    SplitNoSep(h, ':');
    SplitAppendNoSep(h, "00", ':');
    assert h + [':'] + "00" == "\U{1C}7:00";
    SeparatorNotSkipped();
  }

  lemma SignedRefusedByStrptime()
    ensures ParseClock("+7:00").None?
  {
    SplitSignedExample();
    assert ClockField("+7", 23).None?;
  }

  lemma SignedPassesHourCheck()
    ensures ValidateTimeFormat(Some("+7:00")).Ok?
  {
    SplitSignedExample();
    SignedHourExample();
    PyIntOfNumeral("00");
  }

  lemma SplitSignedExample()
    ensures Split("+7:00", ':') == ["+7", "00"]
  {
    assert "+"[..0] == "";
    assert "" + "+" == "+";
    assert Split("+", ':') == ["+"];
    assert "+7"[..1] == "+";
    assert "+" + "7" == "+7";
    assert Split("+7", ':') == ["+7"];
    assert "+7:"[..2] == "+7";
    assert Split("+7:", ':') == ["+7", ""];
    assert "+7:0"[..3] == "+7:";
    assert "" + "0" == "0";
    assert Split("+7:0", ':') == ["+7", "0"];
    assert "+7:00"[..4] == "+7:0";
    assert "0" + "0" == "00";
  }

  lemma SignedHourExample()
    ensures PyInt("+7") == Some(7)
  {
    NoIntSpaceAtEnds("+7");
    SevenValue();
    assert SignedNumeral("+7") == Some(7) by {
      assert "+7"[1..] == "7";
    }
  }

  lemma SevenValue()
    ensures UnderscoredValue("7") == Some(7)
  {
    assert AllDigits("7");
    assert DigitsValue("7") == 7 by {
      assert "7"[..0] == "";
    }
  }

  /** A text with no colon, or with two, is refused. */
  lemma TimeFormatRejections()
    ensures ValidateTimeFormat(Some("0700")) == Err(InvalidTimeFormat)
    ensures ValidateTimeFormat(Some("1:2:3")) == Err(InvalidTimeFormat)
  {
    assert "0700"[..3] == "070";
    assert "070"[..2] == "07";
    assert "07"[..1] == "0";
    assert "0"[..0] == "";
    assert Count("0700", ':') == 0;
    assert "1:2:3"[..4] == "1:2:";
    assert "1:2:"[..3] == "1:2";
    assert "1:2"[..2] == "1:";
    assert "1:"[..1] == "1";
    assert "1"[..0] == "";
    assert Count("1:2:3", ':') == 2;
  }

  /** A field the update schema rejects. */
  datatype ConfigField = HalfHourRateField | AdditionalHourRateField | NightRateField
                       | NightStartField | NightEndField

  predicate PriceOk(p: Option<Cents>) {
    p.None? || p.value >= 0
  }

  /**
   * `ConfiguracionUpdate`: every price given must be non-negative and every
   * time given must pass `validar_formato_hora`; all failing fields are
   * reported in declaration order, and an accepted patch is returned as is.
   */
  function ValidatePatch(p: Patch): (r: Result<Patch, seq<ConfigField>>)
    ensures r.Ok? <==> PriceOk(p.halfHourRate) && PriceOk(p.additionalHourRate) && PriceOk(p.nightRate)
                       && ValidateTimeFormat(p.nightStart).Ok? && ValidateTimeFormat(p.nightEnd).Ok?
    ensures r.Ok? ==> r.value == p
    ensures r.Err? ==> (NightStartField in r.error <==> ValidateTimeFormat(p.nightStart).Err?)
    ensures r.Err? ==> (HalfHourRateField in r.error <==> !PriceOk(p.halfHourRate))
    ensures r.Err? ==> (AdditionalHourRateField in r.error <==> !PriceOk(p.additionalHourRate))
    ensures r.Err? ==> (NightRateField in r.error <==> !PriceOk(p.nightRate))
    ensures r.Err? ==> (NightEndField in r.error <==> ValidateTimeFormat(p.nightEnd).Err?)
  {
    var errors := PriceErrors(p) + TimeErrors(p);
    if |errors| == 0 then Ok(p) else Err(errors)
  }

  /** The price fields that fail `ge=0`, in declaration order. */
  function PriceErrors(p: Patch): (e: seq<ConfigField>)
    ensures |e| == 0 <==> PriceOk(p.halfHourRate) && PriceOk(p.additionalHourRate) && PriceOk(p.nightRate)
    ensures HalfHourRateField in e <==> !PriceOk(p.halfHourRate)
    ensures AdditionalHourRateField in e <==> !PriceOk(p.additionalHourRate)
    ensures NightRateField in e <==> !PriceOk(p.nightRate)
    ensures NightStartField !in e && NightEndField !in e
  {
    Flag(PriceOk(p.halfHourRate), HalfHourRateField)
    + Flag(PriceOk(p.additionalHourRate), AdditionalHourRateField)
    + Flag(PriceOk(p.nightRate), NightRateField)
  }

  /** The time fields that fail `validar_formato_hora`, in declaration order. */
  function TimeErrors(p: Patch): (e: seq<ConfigField>)
    ensures |e| == 0 <==> ValidateTimeFormat(p.nightStart).Ok? && ValidateTimeFormat(p.nightEnd).Ok?
    ensures NightStartField in e <==> ValidateTimeFormat(p.nightStart).Err?
    ensures NightEndField in e <==> ValidateTimeFormat(p.nightEnd).Err?
    ensures HalfHourRateField !in e && AdditionalHourRateField !in e && NightRateField !in e
  {
    Flag(ValidateTimeFormat(p.nightStart).Ok?, NightStartField)
    + Flag(ValidateTimeFormat(p.nightEnd).Ok?, NightEndField)
  }

  /** The error list one field contributes: nothing when it is valid, its name otherwise. */
  function Flag(ok: bool, f: ConfigField): (r: seq<ConfigField>)
    ensures |r| == 0 <==> ok
    ensures forall g :: g in r <==> !ok && g == f
  {
    if ok then [] else [f]
  }
}

=== FILE: config_service.dfy ===
/**
 * The tariff store (`ConfiguracionService`): "latest by id" lookup that
 * creates the default row when the table is empty, and field-wise partial
 * update of that row in place. The table is a sequence in insertion order.
 */
module ConfigService {
  import opened Wrappers
  import opened Clock
  import opened Pricing
  import opened ConfigSchema

  /** Rows carry the auto-increment ids 1, 2, ... in insertion order; none is deleted. */
  predicate WellNumbered(rows: seq<PricingConfig>) {
    forall i :: 0 <= i < |rows| ==> rows[i].id == i + 1
  }

  /** Position of the row with the greatest id (`order_by(id.desc()).first()`). */
  function LatestIndex(rows: seq<PricingConfig>): (k: nat)
    requires |rows| > 0
    ensures k < |rows|
    ensures forall j :: 0 <= j < |rows| ==> rows[j].id <= rows[k].id
  {
    if |rows| == 1 then 0
    else
      var k := LatestIndex(rows[..|rows| - 1]);
      if rows[|rows| - 1].id > rows[k].id then |rows| - 1 else k
  }

  /** With auto-increment ids, the latest row is the last one inserted. */
  lemma LatestIsLast(rows: seq<PricingConfig>)
    requires |rows| > 0 && WellNumbered(rows)
    ensures LatestIndex(rows) == |rows| - 1
  {
  }

  /** The table after a read, and the row read. */
  datatype Fetched = Fetched(rows: seq<PricingConfig>, config: PricingConfig)

  /**
   * `obtener_configuracion`: the row with the greatest id, inserting nothing;
   * on an empty table, the default row is inserted with id 1 and returned.
   */
  function GetConfig(rows: seq<PricingConfig>): (f: Fetched)
    ensures |rows| > 0 ==> f.rows == rows
    ensures |rows| == 0 ==> f.rows == [DefaultConfig(1)]
    ensures f.config in f.rows
    ensures forall c :: c in f.rows ==> c.id <= f.config.id
  {
    if |rows| == 0 then Fetched([DefaultConfig(1)], DefaultConfig(1))
    else
      var k := LatestIndex(rows);
      Fetched(rows, rows[k])
  }

  /** Reading twice gives the same row and the same table as reading once. */
  lemma GetConfigStable(rows: seq<PricingConfig>)
    ensures GetConfig(GetConfig(rows).rows) == GetConfig(rows)
  {
  }

  /** `GetConfig` keeps the ids in insertion order. */
  lemma GetConfigWellNumbered(rows: seq<PricingConfig>)
    requires WellNumbered(rows)
    ensures WellNumbered(GetConfig(rows).rows)
  {
  }

  /** Which time field `strptime` refused. */
  datatype UpdateError = BadNightStart | BadNightEnd

  /** Apply one optional field: a given value replaces, an absent one keeps. */
  function Pick<T>(given: Option<T>, current: T): (v: T)
    ensures given.Some? ==> v == given.value
    ensures given.None? ==> v == current
  {
    match given
    case Some(x) => x
    case None => current
  }

  /** Parse an optional time field; `None` when it is given but `strptime` refuses it. */
  function ParseOptionalClock(t: Option<string>): Option<Option<TimeOfDay>> {
    match t
    case None => Some(None)
    case Some(s) =>
      match ParseClock(s)
      case Some(v) => Some(Some(v))
      case None => None
  }

  /** The table after an update, and the updated row or the failure. */
  datatype Updated = Updated(rows: seq<PricingConfig>, result: Result<PricingConfig, UpdateError>)

  /**
   * `actualizar_configuracion`: reads the latest row (creating the default if
   * the table is empty, which is committed before anything can fail), then
   * overwrites only the fields the patch gives, parsing times with
   * `strptime('%H:%M')`. The row is changed in place; a refused time leaves
   * the table as the read left it.
   */
  function UpdateConfig(rows: seq<PricingConfig>, p: Patch): (u: Updated)
    ensures |u.rows| == if |rows| == 0 then 1 else |rows|
    ensures u.result.Err? ==> u.rows == GetConfig(rows).rows
    ensures u.result.Err? <==>
      (p.nightStart.Some? && ParseClock(p.nightStart.value).None?)
      || (p.nightEnd.Some? && ParseClock(p.nightEnd.value).None?)
    ensures u.result.Ok? ==>
      var prev := GetConfig(rows).config;
      var c := u.result.value;
      && c.id == prev.id
      && (p.halfHourRate.None? ==> c.halfHourRate == prev.halfHourRate)
      && (p.halfHourRate.Some? ==> c.halfHourRate == p.halfHourRate.value)
      && (p.additionalHourRate.None? ==> c.additionalHourRate == prev.additionalHourRate)
      && (p.additionalHourRate.Some? ==> c.additionalHourRate == p.additionalHourRate.value)
      && (p.nightRate.None? ==> c.nightRate == prev.nightRate)
      && (p.nightRate.Some? ==> c.nightRate == p.nightRate.value)
      && (p.nightStart.None? ==> c.nightStart == prev.nightStart)
      && (p.nightStart.Some? ==> Some(c.nightStart) == ParseClock(p.nightStart.value))
      && (p.nightEnd.None? ==> c.nightEnd == prev.nightEnd)
      && (p.nightEnd.Some? ==> Some(c.nightEnd) == ParseClock(p.nightEnd.value))
    ensures u.result.Ok? ==>
      var fetched := GetConfig(rows).rows;
      var k := LatestIndex(fetched);
      && u.rows == fetched[k := u.result.value]
  {
    var fetched := GetConfig(rows);
    var k := LatestIndex(fetched.rows);
    var prev := fetched.config;
    match (ParseOptionalClock(p.nightStart), ParseOptionalClock(p.nightEnd))
    case (None, _) => Updated(fetched.rows, Err(BadNightStart))
    case (_, None) => Updated(fetched.rows, Err(BadNightEnd))
    case (Some(start), Some(end)) =>
      var c := PricingConfig(
        prev.id,
        Pick(p.halfHourRate, prev.halfHourRate),
        Pick(p.additionalHourRate, prev.additionalHourRate),
        Pick(p.nightRate, prev.nightRate),
        Pick(start, prev.nightStart),
        Pick(end, prev.nightEnd));
      Updated(fetched.rows[k := c], Ok(c))
  }

  /** An update keeps the ids in insertion order. */
  lemma UpdateWellNumbered(rows: seq<PricingConfig>, p: Patch)
    requires WellNumbered(rows)
    ensures WellNumbered(UpdateConfig(rows, p).rows)
  {
  }

  /**
   * Every tariff the service can hold has non-negative prices: the default row
   * has them, and an update the request schema accepted keeps them. So the
   * fee's monotonicity (`Fare.FareMonotone`) applies to the tariff in force.
   */
  lemma AcceptedUpdateKeepsNonNegative(rows: seq<PricingConfig>, p: Patch)
    requires forall c :: c in rows ==> NonNegativePrices(c)
    requires ValidatePatch(p).Ok?
    ensures forall c :: c in UpdateConfig(rows, p).rows ==> NonNegativePrices(c)
    ensures NonNegativePrices(GetConfig(UpdateConfig(rows, p).rows).config)
  {
    DefaultWindowWraps(1);
    var fetched := GetConfig(rows).rows;
    assert forall c :: c in fetched ==> NonNegativePrices(c);
    var u := UpdateConfig(rows, p);
    if u.result.Ok? {
      var k := LatestIndex(fetched);
      assert u.rows == fetched[k := u.result.value];
      assert NonNegativePrices(u.result.value);
      forall c | c in u.rows
        ensures NonNegativePrices(c)
      {
        var i :| 0 <= i < |u.rows| && u.rows[i] == c;
        if i != k {
          assert c == fetched[i];
        }
      }
    }
  }

  /** Reading after a successful update returns the updated row. */
  lemma UpdateThenGet(rows: seq<PricingConfig>, p: Patch)
    requires WellNumbered(rows)
    requires UpdateConfig(rows, p).result.Ok?
    ensures GetConfig(UpdateConfig(rows, p).rows).config == UpdateConfig(rows, p).result.value
  {
    var fetched := GetConfig(rows).rows;
    LatestIsLast(fetched);
    var after := UpdateConfig(rows, p).rows;
    UpdateWellNumbered(rows, p);
    LatestIsLast(after);
  }

  /** An empty patch succeeds and changes neither the row nor the table. */
  lemma EmptyPatchChangesNothing(rows: seq<PricingConfig>)
    ensures UpdateConfig(rows, EmptyPatch).result == Ok(GetConfig(rows).config)
    ensures UpdateConfig(rows, EmptyPatch).rows == GetConfig(rows).rows
  {
    var fetched := GetConfig(rows);
    var k := LatestIndex(fetched.rows);
    assert fetched.rows[k] == fetched.config;
  }

  /**
   * Changing only the night start and reading back preserves every other
   * field; the new start is the parsed time.
   */
  lemma UpdateNightStartRoundTrip(rows: seq<PricingConfig>, s: string)
    requires WellNumbered(rows)
    requires ParseClock(s).Some?
    ensures
      var before := GetConfig(rows).config;
      var after := GetConfig(UpdateConfig(rows, EmptyPatch.(nightStart := Some(s))).rows).config;
      after == before.(nightStart := ParseClock(s).value)
  {
    UpdateThenGet(rows, EmptyPatch.(nightStart := Some(s)));
  }
}

=== FILE: fare.dfy ===
/**
 * The fee engine (`CalculadoraPrecios`): elapsed whole minutes, the
 * progressive half-hour-plus-started-hours tariff, the night-window
 * classifier and the elapsed-time text.
 */
module Fare {
  import opened Wrappers
  import opened Text
  import opened Clock
  import opened Pricing

  /** One item of the charge breakdown (`detalles`). */
  datatype ChargeLine =
    | FirstHalfHour(price: Cents)
    | AdditionalHours(hours: nat, amount: Cents)

  /** `detalles`: the time-error note, or the list of charged items. */
  datatype Breakdown = TimeError | Lines(lines: seq<ChargeLine>)

  /** The dictionary `calcular_costo` returns. */
  datatype FareResult = FareResult(cost: Cents, minutes: int, details: Breakdown)

  /** The dictionary `_calcular_tarifa_diurna` returns. */
  datatype Tariff = Tariff(total: Cents, lines: seq<ChargeLine>)

  /** Python's `int(x / y)`: division truncating toward zero. */
  function TruncDiv(x: int, y: int): (q: int)
    requires y > 0
    ensures x >= 0 ==> y * q <= x < y * (q + 1)
    ensures x < 0 ==> y * (q - 1) < x <= y * q
  {
    if x >= 0 then x / y else -((-x) / y)
  }

  /** `int((exit - entry).total_seconds() / 60)`. */
  function ElapsedMinutes(entry: Timestamp, exit: Timestamp): int {
    TruncDiv(exit - entry, 60)
  }

  /** `math.ceil(n / d)` for non-negative `n`: the fewest `d`-blocks covering `n`. */
  function CeilDiv(n: nat, d: nat): (q: nat)
    requires d > 0
    ensures d * q >= n
    ensures q > 0 ==> d * (q - 1) < n
  {
    (n + d - 1) / d
  }

  /** Started hours after the first half hour, charged for `m` elapsed minutes. */
  function AdditionalHoursFor(m: int): (h: nat)
    ensures m <= 30 ==> h == 0
    ensures m > 30 ==> 30 + 60 * (h - 1) < m <= 30 + 60 * h
  {
    if m <= 30 then 0 else CeilDiv(m - 30, 60)
  }

  /**
   * `calcular_costo(entrada, salida, config)`. Fewer than one whole elapsed
   * minute (including an exit before the entry) is a zero-cost time error;
   * otherwise the first half hour is charged once, plus every started hour
   * after it.
   */
  function CalculateFare(entry: Timestamp, exit: Timestamp, config: PricingConfig): (f: FareResult)
    ensures exit - entry < 60 <==> f.details == TimeError
    ensures exit - entry < 60 ==> f == FareResult(0, 0, TimeError)
    ensures exit - entry >= 60 ==> 60 * f.minutes <= exit - entry < 60 * (f.minutes + 1)
    ensures 0 < f.minutes < 30 ==>
      f.cost == config.halfHourRate && f.details == Lines([FirstHalfHour(config.halfHourRate)])
    ensures f.minutes >= 30 ==>
      && f.details.Lines? && |f.details.lines| == 2
      && f.details.lines[0] == FirstHalfHour(config.halfHourRate)
      && f.details.lines[1].AdditionalHours?
      && var h := f.details.lines[1].hours;
      && (f.minutes == 30 ==> h == 0)
      && (f.minutes > 30 ==> 30 + 60 * (h - 1) < f.minutes <= 30 + 60 * h)
      && f.details.lines[1].amount == h * config.additionalHourRate
      && f.cost == config.halfHourRate + h * config.additionalHourRate
  {
    var m := ElapsedMinutes(entry, exit);
    if m <= 0 then FareResult(0, 0, TimeError)
    else if m >= 30 then
      var hours := CeilDiv(m - 30, 60);
      var amount := hours * config.additionalHourRate;
      FareResult(config.halfHourRate + amount, m,
                 Lines([FirstHalfHour(config.halfHourRate), AdditionalHours(hours, amount)]))
    else
      FareResult(config.halfHourRate, m, Lines([FirstHalfHour(config.halfHourRate)]))
  }

  /** `_calcular_tarifa_diurna(minutos, config)`: the same progressive rule on minutes. */
  function DaytimeTariff(minutes: int, config: PricingConfig): (t: Tariff)
    ensures minutes <= 30 ==> t == Tariff(config.halfHourRate, [FirstHalfHour(config.halfHourRate)])
    ensures minutes > 30 ==>
      && |t.lines| == 2 && t.lines[0] == FirstHalfHour(config.halfHourRate)
      && t.lines[1].AdditionalHours?
      && 30 + 60 * (t.lines[1].hours - 1) < minutes <= 30 + 60 * t.lines[1].hours
      && t.total == config.halfHourRate + t.lines[1].amount
      && t.lines[1].amount == t.lines[1].hours * config.additionalHourRate
  {
    if minutes <= 30 then
      Tariff(config.halfHourRate, [FirstHalfHour(config.halfHourRate)])
    else
      var hours := CeilDiv(minutes - 30, 60);
      var amount := hours * config.additionalHourRate;
      Tariff(config.halfHourRate + amount,
             [FirstHalfHour(config.halfHourRate), AdditionalHours(hours, amount)])
  }

  /** The entry/exit pair that is exactly `m` minutes apart. */
  function Span(m: int): Timestamp {
    60 * m
  }

  lemma SpanMinutes(m: int)
    requires m >= 0
    ensures ElapsedMinutes(0, Span(m)) == m
  {
  }

  /** With the default tariff: 30 minutes cost 0.50, 31 and 90 cost 1.50, 91 cost 2.50. */
  lemma FareExamples()
    ensures CalculateFare(0, Span(30), DefaultConfig(1)).cost == 50
    ensures CalculateFare(0, Span(31), DefaultConfig(1)).cost == 150
    ensures CalculateFare(0, Span(90), DefaultConfig(1)).cost == 150
    ensures CalculateFare(0, Span(91), DefaultConfig(1)).cost == 250
    ensures CalculateFare(0, 59, DefaultConfig(1)).cost == 0
    ensures CalculateFare(0, Span(29), DefaultConfig(1)) == FareResult(50, 29, Lines([FirstHalfHour(50)]))
  {
    SpanMinutes(30);
    SpanMinutes(31);
    SpanMinutes(90);
    SpanMinutes(91);
    SpanMinutes(29);
  }

  /** More started hours are charged for a longer stay, never fewer. */
  lemma AdditionalHoursMonotone(m1: int, m2: int)
    requires m1 <= m2
    ensures AdditionalHoursFor(m1) <= AdditionalHoursFor(m2)
  {
  }

  /** Only one count of started hours covers a given stay. */
  lemma StartedHoursUnique(m: int, h: int, k: int)
    requires 30 + 60 * (h - 1) < m <= 30 + 60 * h
    requires 30 + 60 * (k - 1) < m <= 30 + 60 * k
    ensures h == k
  {
  }

  /** The cost of a stay of at least one minute, as the progressive rule states it. */
  lemma FareCost(entry: Timestamp, exit: Timestamp, config: PricingConfig)
    requires ElapsedMinutes(entry, exit) >= 1
    ensures CalculateFare(entry, exit, config).cost
      == config.halfHourRate + AdditionalHoursFor(ElapsedMinutes(entry, exit)) * config.additionalHourRate
  {
    var m := ElapsedMinutes(entry, exit);
    var f := CalculateFare(entry, exit, config);
    assert f.minutes == m;
    if m > 30 {
      StartedHoursUnique(m, f.details.lines[1].hours, AdditionalHoursFor(m));
    }
  }

  /**
   * With non-negative half-hour and hourly prices, staying longer never costs
   * less, from the free stay under a minute on; every stay of a minute or more
   * costs at least the half-hour price.
   */
  lemma FareMonotone(entry: Timestamp, exit1: Timestamp, exit2: Timestamp, config: PricingConfig)
    requires config.halfHourRate >= 0 && config.additionalHourRate >= 0
    requires ElapsedMinutes(entry, exit1) <= ElapsedMinutes(entry, exit2)
    ensures ElapsedMinutes(entry, exit1) >= 1 ==> config.halfHourRate <= CalculateFare(entry, exit1, config).cost
    ensures CalculateFare(entry, exit1, config).cost <= CalculateFare(entry, exit2, config).cost
  {
    var m1 := ElapsedMinutes(entry, exit1);
    var m2 := ElapsedMinutes(entry, exit2);
    if m1 >= 1 {
      FareCost(entry, exit1, config);
      FareCost(entry, exit2, config);
      AdditionalHoursMonotone(m1, m2);
      MulMonotone(AdditionalHoursFor(m1), AdditionalHoursFor(m2), config.additionalHourRate);
    } else {
      FreeStay(entry, exit1, config);
      FareNonNegative(entry, exit2, config);
    }
  }

  /** A stay under a whole minute is free. */
  lemma FreeStay(entry: Timestamp, exit: Timestamp, config: PricingConfig)
    requires ElapsedMinutes(entry, exit) < 1
    ensures CalculateFare(entry, exit, config).cost == 0
  {
  }

  /** With non-negative prices no stay costs less than nothing. */
  lemma FareNonNegative(entry: Timestamp, exit: Timestamp, config: PricingConfig)
    requires config.halfHourRate >= 0 && config.additionalHourRate >= 0
    ensures CalculateFare(entry, exit, config).cost >= 0
  {
    var m := ElapsedMinutes(entry, exit);
    if m >= 1 {
      FareCost(entry, exit, config);
      MulMonotone(0, AdditionalHoursFor(m), config.additionalHourRate);
    } else {
      FreeStay(entry, exit, config);
    }
  }

  lemma MulMonotone(a: nat, b: nat, r: int)
    requires a <= b && r >= 0
    ensures a * r <= b * r
  {
    assert b * r - a * r == (b - a) * r;
  }

  /**
   * `calcular_costo` and `_calcular_tarifa_diurna` charge the same total for
   * every stay of a minute or more; their breakdowns differ only at exactly 30
   * minutes, where `calcular_costo` lists a zero-hour item.
   */
  lemma FareMatchesDaytimeTariff(entry: Timestamp, exit: Timestamp, config: PricingConfig)
    requires ElapsedMinutes(entry, exit) >= 1
    ensures CalculateFare(entry, exit, config).cost
         == DaytimeTariff(ElapsedMinutes(entry, exit), config).total
    ensures ElapsedMinutes(entry, exit) != 30 ==>
      CalculateFare(entry, exit, config).details
         == Lines(DaytimeTariff(ElapsedMinutes(entry, exit), config).lines)
    ensures ElapsedMinutes(entry, exit) == 30 ==>
      CalculateFare(entry, exit, config).details
         == Lines(DaytimeTariff(30, config).lines + [AdditionalHours(0, 0)])
  {
    var m := ElapsedMinutes(entry, exit);
    FareCost(entry, exit, config);
    var t := DaytimeTariff(m, config);
    if m > 30 {
      StartedHoursUnique(m, t.lines[1].hours, AdditionalHoursFor(m));
    }
  }

  // ---------------------------------------------------------------------
  // _es_periodo_nocturno
  // ---------------------------------------------------------------------

  /** The dictionary `_es_periodo_nocturno` returns. */
  datatype NightCheck = NightCheck(isNight: bool, periodEnd: Timestamp, periodStart: Option<Timestamp>)

  /**
   * `_es_periodo_nocturno(momento, config)`: whether the moment's time of day
   * lies in the half-open window [start, end), which wraps past midnight when
   * start > end; the end of the current or next period; and the start of the
   * period only when it is still to come.
   */
  function ClassifyNight(moment: Timestamp, start: TimeOfDay, end: TimeOfDay): (c: NightCheck)
    ensures start > end ==> (c.isNight <==> TimeOf(moment) >= start || TimeOf(moment) < end)
    ensures start <= end ==> (c.isNight <==> start <= TimeOf(moment) < end)
    ensures TimeOf(c.periodEnd) == end
    ensures Day(c.periodEnd) == Day(moment) + (if start > end && TimeOf(moment) >= start then 1 else 0)
    ensures c.periodStart.Some? ==> Day(c.periodStart.value) == Day(moment)
    ensures c.isNight ==> moment < c.periodEnd <= moment + SecondsPerDay
    ensures c.periodStart.Some? ==> moment < c.periodStart.value && TimeOf(c.periodStart.value) == start
    ensures c.periodStart.Some? ==> !c.isNight
    ensures c.periodStart.Some? <==> TimeOf(moment) < start && (start <= end || end <= TimeOf(moment))
  {
    var now := TimeOf(moment);
    var today := Day(moment);
    if start > end then
      var isNight := now >= start || now < end;
      var periodEnd := if now >= start then Combine(today + 1, end) else Combine(today, end);
      var periodStart := if now < end then Combine(today - 1, start) else Combine(today, start);
      NightCheck(isNight, periodEnd, if periodStart > moment then Some(periodStart) else None)
    else
      var isNight := start <= now < end;
      var periodEnd := Combine(today, end);
      var periodStart := Combine(today, start);
      NightCheck(isNight, periodEnd, if periodStart > moment then Some(periodStart) else None)
  }

  /** An empty window (start equal to end) never contains a moment. */
  lemma EmptyWindowNeverNight(moment: Timestamp, t: TimeOfDay)
    ensures !ClassifyNight(moment, t, t).isNight
  {
  }

  /**
   * Both branches of the classifier are one rule: a moment is in the window
   * exactly when its clockwise distance from the start is shorter than the
   * window's length, both taken modulo a day.
   */
  lemma NightIsCircularInterval(moment: Timestamp, start: TimeOfDay, end: TimeOfDay)
    ensures ClassifyNight(moment, start, end).isNight
        <==> (TimeOf(moment) - start) % SecondsPerDay < (end - start) % SecondsPerDay
  {
    var t := TimeOf(moment);
    var d := (t - start) % SecondsPerDay;
    var len := (end - start) % SecondsPerDay;
    if t >= start { assert d == t - start; } else { assert d == t - start + SecondsPerDay; }
    if end >= start { assert len == end - start; } else { assert len == end - start + SecondsPerDay; }
  }

  /** In a wrapped window, the period start is reported only between the end and the next start. */
  lemma WrappedStartOnlyByDay(moment: Timestamp, start: TimeOfDay, end: TimeOfDay)
    requires start > end
    ensures ClassifyNight(moment, start, end).periodStart.Some? <==> end <= TimeOf(moment) < start
  {
  }

  /** With the default window, 23:00 and 03:00 are night and noon is not. */
  lemma DefaultWindowExamples(day: int)
    ensures ClassifyNight(Combine(day, HourMinute(23, 0)), DefaultNightStart, DefaultNightEnd).isNight
    ensures ClassifyNight(Combine(day, HourMinute(3, 0)), DefaultNightStart, DefaultNightEnd).isNight
    ensures !ClassifyNight(Combine(day, HourMinute(12, 0)), DefaultNightStart, DefaultNightEnd).isNight
    ensures ClassifyNight(Combine(day, HourMinute(3, 0)), DefaultNightStart, DefaultNightEnd).periodStart.None?
  {
  }

  // ---------------------------------------------------------------------
  // formatear_tiempo
  // ---------------------------------------------------------------------

  /**
   * `formatear_tiempo(minutos)`: `"{h}h {m}m"` with Python's floor division
   * and modulo (for a positive divisor they agree with Dafny's `/` and `%`).
   * The text reads back as the same number of minutes, for every integer.
   */
  function FormatDuration(minutes: int): (r: string)
    ensures ParseDuration(r) == Some(minutes)
    ensures forall t :: ParseDuration(t) == Some(minutes) ==> t == r
  {
    var hs := IntToString(minutes / 60);
    var ms := IntToString(minutes % 60);
    IntToStringRoundTrip(minutes / 60);
    IntToStringRoundTrip(minutes % 60);
    NoLetterInNumeral(minutes / 60);
    ParseDurationOfParts(hs, ms, minutes / 60, minutes % 60);
    ParseDurationUnique(minutes);
    hs + "h " + ms + "m"
  }

  /** Position of the first occurrence of `c`. */
  function FirstIndex(s: string, c: char): (r: Option<nat>)
    ensures r.None? ==> c !in s
    ensures r.Some? ==> r.value < |s| && s[r.value] == c && c !in s[..r.value]
  {
    if |s| == 0 then None
    else if s[0] == c then Some(0)
    else
      match FirstIndex(s[1..], c)
      case None => None
      case Some(k) =>
        assert s[..k + 1] == [s[0]] + s[1..][..k];
        Some(k + 1)
  }

  /** Reads an elapsed-time text `"{h}h {m}m"` back into minutes. */
  function ParseDuration(s: string): Option<int> {
    match FirstIndex(s, 'h')
    case None => None
    case Some(k) =>
      if k + 2 < |s| && s[k + 1] == ' ' && s[|s| - 1] == 'm' then
        match (ParseSigned(s[..k]), ParseSigned(s[k + 2..|s| - 1]))
        case (Some(h), Some(m)) => if 0 <= m < 60 then Some(60 * h + m) else None
        case _ => None
      else None
  }

  lemma NoLetterInNumeral(i: int)
    ensures 'h' !in IntToString(i)
  {
    var s := IntToString(i);
    if i < 0 {
      assert s == "-" + NatToString(-i);
      assert forall j :: 1 <= j < |s| ==> s[j] == NatToString(-i)[j - 1];
    }
  }

  /** Each number of minutes has exactly one text `ParseDuration` reads as it. */
  lemma ParseDurationUnique(minutes: int)
    ensures forall t :: ParseDuration(t) == Some(minutes) ==>
      t == IntToString(minutes / 60) + "h " + IntToString(minutes % 60) + "m"
  {
    forall t | ParseDuration(t) == Some(minutes)
      ensures t == IntToString(minutes / 60) + "h " + IntToString(minutes % 60) + "m"
    {
      DurationTextOf(t, minutes);
    }
  }

  lemma DurationTextOf(t: string, minutes: int)
    requires ParseDuration(t) == Some(minutes)
    ensures t == IntToString(minutes / 60) + "h " + IntToString(minutes % 60) + "m"
  {
    DurationParts(t);
    var k := FirstIndex(t, 'h').value;
    var hs := t[..k];
    var ms := t[k + 2..|t| - 1];
    var h := ParseSigned(hs).value;
    var m := ParseSigned(ms).value;
    HoursAndMinutes(minutes, h, m);
    assert hs == IntToString(minutes / 60) by {
      ParseSignedUnique(hs, h);
    }
    assert ms == IntToString(minutes % 60) by {
      ParseSignedUnique(ms, m);
    }
    Reassemble(t, k);
  }

  /** What `ParseDuration` found in a text it accepted. */
  lemma DurationParts(t: string)
    requires ParseDuration(t).Some?
    ensures FirstIndex(t, 'h').Some?
    ensures var k := FirstIndex(t, 'h').value;
      && k + 2 < |t| && t[k] == 'h' && t[k + 1] == ' ' && t[|t| - 1] == 'm'
      && ParseSigned(t[..k]).Some? && ParseSigned(t[k + 2..|t| - 1]).Some?
      && 0 <= ParseSigned(t[k + 2..|t| - 1]).value < 60
      && ParseDuration(t).value == 60 * ParseSigned(t[..k]).value + ParseSigned(t[k + 2..|t| - 1]).value
  {
  }

  lemma HoursAndMinutes(minutes: int, h: int, m: int)
    requires minutes == 60 * h + m && 0 <= m < 60
    ensures minutes / 60 == h && minutes % 60 == m
  {
  }

  lemma Reassemble(t: string, k: nat)
    requires k + 2 < |t| && t[k] == 'h' && t[k + 1] == ' ' && t[|t| - 1] == 'm'
    ensures t == t[..k] + "h " + t[k + 2..|t| - 1] + "m"
  {
  }

  /** A text `"{h}h {m}m"` built from numerals reads back as `60 * h + m`. */
  lemma ParseDurationOfParts(hs: string, ms: string, h: int, m: int)
    requires ParseSigned(hs) == Some(h) && ParseSigned(ms) == Some(m) && 0 <= m < 60
    requires 'h' !in hs
    ensures ParseDuration(hs + "h " + ms + "m") == Some(60 * h + m)
  {
    var s := hs + "h " + ms + "m";
    var k := |hs|;
    assert s[k] == 'h' && s[k + 1] == ' ' && s[|s| - 1] == 'm';
    assert s[..k] == hs;
    assert FirstIndex(s, 'h') == Some(k);
    assert s[k + 2..|s| - 1] == ms;
  }

  /** Whole hours and leftover minutes are both always shown, even when zero. */
  lemma FormatDurationExamples()
    ensures FormatDuration(0) == "0h 0m"
    ensures FormatDuration(60) == "1h 0m"
    ensures FormatDuration(90) == "1h 30m"
    ensures FormatDuration(45) == "0h 45m"
  {
    ShowsZero();
    ShowsHour();
    ShowsHourAndHalf();
    ShowsThreeQuarters();
  }

  lemma ShowsZero()
    ensures FormatDuration(0) == "0h 0m"
  {
    ShowsDuration(0, "0", "0");
  }

  lemma ShowsHour()
    ensures FormatDuration(60) == "1h 0m"
  {
    ShowsDuration(60, "1", "0");
  }

  lemma ShowsHourAndHalf()
    ensures FormatDuration(90) == "1h 30m"
  {
    ShowsThirty();
    ShowsDuration(90, "1", "30");
  }

  lemma ShowsThreeQuarters()
    ensures FormatDuration(45) == "0h 45m"
  {
    ShowsFortyFive();
    ShowsDuration(45, "0", "45");
  }

  lemma ShowsDuration(minutes: int, hs: string, ms: string)
    requires IntToString(minutes / 60) == hs && IntToString(minutes % 60) == ms
    ensures FormatDuration(minutes) == hs + "h " + ms + "m"
  {
  }

  lemma ShowsThirty()
    ensures IntToString(30) == "30"
  {
    assert NatToString(30) == NatToString(3) + "0";
  }

  lemma ShowsFortyFive()
    ensures IntToString(45) == "45"
  {
    assert NatToString(45) == NatToString(4) + "5";
  }
}

=== FILE: ledger.dfy ===
/**
 * Queries over the invoice ledger (`obtener_historial`,
 * `obtener_reporte_diario`). Dates are day numbers of the generation time.
 */
module Ledger {
  import opened Wrappers
  import opened Clock
  import opened Pricing
  import opened ParkingStore
  import opened VehicleService

  /** The invoices generated on day `d`, in ledger order (`func.date(fecha_generacion) == d`). */
  function OnDay(invs: seq<Invoice>, d: int): (r: seq<Invoice>)
    ensures |r| <= |invs|
  {
    if |invs| == 0 then []
    else
      var last := invs[|invs| - 1];
      OnDay(invs[..|invs| - 1], d) + (if Day(last.generatedAt) == d then [last] else [])
  }

  /** The day filter keeps exactly the invoices generated on that day. */
  lemma {:induction false} OnDayMembers(invs: seq<Invoice>, d: int)
    ensures forall x :: x in OnDay(invs, d) <==> x in invs && Day(x.generatedAt) == d
  {
    if |invs| > 0 {
      var init := invs[..|invs| - 1];
      OnDayMembers(init, d);
      assert invs == init + [invs[|invs| - 1]];
    }
  }

  /** Extending the ledger by one invoice extends the day's list by it, if it is of that day. */
  lemma OnDaySnoc(invs: seq<Invoice>, x: Invoice, d: int)
    ensures OnDay(invs + [x], d) == OnDay(invs, d) + (if Day(x.generatedAt) == d then [x] else [])
  {
    assert (invs + [x])[..|invs|] == invs;
  }

  /** Total cost of a list of invoices (`func.sum(costo_total)`, 0 for none). */
  function Revenue(invs: seq<Invoice>): Cents {
    if |invs| == 0 then 0 else Revenue(invs[..|invs| - 1]) + invs[|invs| - 1].cost
  }

  // ---------------------------------------------------------------------
  // obtener_reporte_diario
  // ---------------------------------------------------------------------

  datatype DailyReport = DailyReport(day: int, vehicles: nat, revenue: Cents)

  /**
   * `obtener_reporte_diario(fecha)`: the number of invoices generated on the
   * day and the sum of their costs; the day defaults to today's.
   */
  method DailyRevenue(invs: seq<Invoice>, date: Option<int>, now: Timestamp) returns (report: DailyReport)
    ensures report.day == (if date.Some? then date.value else Day(now))
    ensures report.vehicles == |OnDay(invs, report.day)|
    ensures report.revenue == Revenue(OnDay(invs, report.day))
  {
    var d := if date.Some? then date.value else Day(now);
    var count := 0;
    var total := 0;
    var i := 0;
    while i < |invs|
      invariant 0 <= i <= |invs|
      invariant count == |OnDay(invs[..i], d)|
      invariant total == Revenue(OnDay(invs[..i], d))
    {
      OnDayStep(invs, i, d);
      if Day(invs[i].generatedAt) == d {
        count := count + 1;
        total := total + invs[i].cost;
      }
      i := i + 1;
    }
    assert invs[..|invs|] == invs;
    report := DailyReport(d, count, total);
  }

  /** One more invoice of the ledger adds one to the day's count and its cost to the revenue, if it is of that day. */
  lemma OnDayStep(invs: seq<Invoice>, i: nat, d: int)
    requires i < |invs|
    ensures Day(invs[i].generatedAt) == d ==>
      |OnDay(invs[..i + 1], d)| == |OnDay(invs[..i], d)| + 1
      && Revenue(OnDay(invs[..i + 1], d)) == Revenue(OnDay(invs[..i], d)) + invs[i].cost
    ensures Day(invs[i].generatedAt) != d ==> OnDay(invs[..i + 1], d) == OnDay(invs[..i], d)
  {
    assert invs[..i + 1] == invs[..i] + [invs[i]];
    OnDaySnoc(invs[..i], invs[i], d);
    if Day(invs[i].generatedAt) == d {
      RevenueAppend(OnDay(invs[..i], d), invs[i]);
    }
  }

  lemma RevenueAppend(invs: seq<Invoice>, x: Invoice)
    ensures Revenue(invs + [x]) == Revenue(invs) + x.cost
  {
    assert (invs + [x])[..|invs|] == invs;
  }

  /** With no invoice on the day, the report is zero vehicles and zero revenue. */
  lemma {:induction false} EmptyDayReport(invs: seq<Invoice>, d: int)
    requires forall k :: 0 <= k < |invs| ==> Day(invs[k].generatedAt) != d
    ensures OnDay(invs, d) == [] && Revenue(OnDay(invs, d)) == 0
  {
    if |invs| > 0 {
      EmptyDayReport(invs[..|invs| - 1], d);
    }
  }

  /**
   * An exit at `now` adds exactly one vehicle and its cost to the report of
   * the day of `now`, and leaves the report of every other day unchanged.
   */
  lemma ExitAddsToDailyReport(st: Store, rawPlate: string, now: Timestamp, d: int)
    requires RegisterExit(st, rawPlate, now).Ok?
    ensures var rc := RegisterExit(st, rawPlate, now).value;
      && (d == Day(now) ==>
            |OnDay(rc.store.invoices, d)| == |OnDay(st.invoices, d)| + 1
            && Revenue(OnDay(rc.store.invoices, d)) == Revenue(OnDay(st.invoices, d)) + rc.invoice.cost)
      && (d != Day(now) ==>
            OnDay(rc.store.invoices, d) == OnDay(st.invoices, d))
  {
    var rc := RegisterExit(st, rawPlate, now).value;
    OnDaySnoc(st.invoices, rc.invoice, d);
    if d == Day(now) {
      RevenueAppend(OnDay(st.invoices, d), rc.invoice);
    }
  }

  // ---------------------------------------------------------------------
  // obtener_historial
  // ---------------------------------------------------------------------

  /** Newest first: generation times never increase along the list. */
  predicate NewestFirst(s: seq<Invoice>) {
    forall i, j :: 0 <= i < j < |s| ==> s[j].generatedAt <= s[i].generatedAt
  }

  /** Put one invoice in its place in a newest-first list, before older and equal ones. */
  function Insert(x: Invoice, s: seq<Invoice>): (r: seq<Invoice>)
    requires NewestFirst(s)
    ensures NewestFirst(r)
    ensures multiset(r) == multiset(s) + multiset{x}
  {
    if |s| == 0 then [x]
    else if x.generatedAt >= s[0].generatedAt then
      ConsNewestFirst(x, s);
      [x] + s
    else
      var rest := Insert(x, s[1..]);
      ConsMultiset(s, rest, x);
      NoNewerThanHead(x, s, rest);
      ConsNewestFirst(s[0], rest);
      [s[0]] + rest
  }

  lemma ConsMultiset(s: seq<Invoice>, rest: seq<Invoice>, x: Invoice)
    requires |s| > 0 && multiset(rest) == multiset(s[1..]) + multiset{x}
    ensures multiset([s[0]] + rest) == multiset(s) + multiset{x}
  {
    assert s == [s[0]] + s[1..];
  }

  /** Inserting below the head of a newest-first list keeps everything no newer than it. */
  lemma NoNewerThanHead(x: Invoice, s: seq<Invoice>, rest: seq<Invoice>)
    requires NewestFirst(s) && |s| > 0 && x.generatedAt < s[0].generatedAt
    requires multiset(rest) == multiset(s[1..]) + multiset{x}
    ensures forall y :: y in rest ==> y.generatedAt <= s[0].generatedAt
  {
    forall y | y in rest
      ensures y.generatedAt <= s[0].generatedAt
    {
      assert y in multiset(rest);
      if y != x {
        assert y in multiset(s[1..]);
        var i :| 0 <= i < |s[1..]| && s[1..][i] == y;
        assert s[i + 1] == y;
      }
    }
  }

  /** A newest-first list stays newest first under a head no older than all of it. */
  lemma ConsNewestFirst(y: Invoice, t: seq<Invoice>)
    requires NewestFirst(t)
    requires forall z :: z in t ==> z.generatedAt <= y.generatedAt
    ensures NewestFirst([y] + t)
  {
    var r := [y] + t;
    forall i, j | 0 <= i < j < |r|
      ensures r[j].generatedAt <= r[i].generatedAt
    {
      if i == 0 {
        assert r[j] == t[j - 1];
        assert t[j - 1] in t;
      } else {
        assert r[i] == t[i - 1] && r[j] == t[j - 1];
      }
    }
  }

  /** `order_by(fecha_generacion.desc())`: a newest-first permutation. */
  function SortNewestFirst(s: seq<Invoice>): (r: seq<Invoice>)
    ensures NewestFirst(r)
    ensures multiset(r) == multiset(s)
  {
    if |s| == 0 then []
    else
      assert s == [s[0]] + s[1..];
      Insert(s[0], SortNewestFirst(s[1..]))
  }

  /** The invoices a date filter admits (`if fecha:`); no filter admits all. */
  function Filtered(invs: seq<Invoice>, date: Option<int>): seq<Invoice> {
    match date
    case None => invs
    case Some(d) => OnDay(invs, d)
  }

  /** The `limite` the history query uses when the caller gives none. */
  const DefaultHistoryLimit: nat := 50

  /** The `limite` in force: the one given, or the default when it is omitted. */
  function LimitOf(given: Option<nat>): nat {
    if given.Some? then given.value else DefaultHistoryLimit
  }

  /**
   * `obtener_historial(fecha, limite)`: at most `limite` invoices of the
   * filtered ledger, newest first; every invoice left out is no newer than
   * every one returned. An omitted `limite` is `None`.
   */
  function History(invs: seq<Invoice>, date: Option<int>, given: Option<nat>): (r: seq<Invoice>)
    ensures given.None? ==> |r| <= 50
    ensures var limit := LimitOf(given);
      |r| == if limit < |Filtered(invs, date)| then limit else |Filtered(invs, date)|
    ensures NewestFirst(r)
    ensures multiset(r) <= multiset(Filtered(invs, date))
    ensures forall x, y ::
      x in r && y in multiset(Filtered(invs, date)) - multiset(r) ==> y.generatedAt <= x.generatedAt
  {
    var sorted := SortNewestFirst(Filtered(invs, date));
    var limit := LimitOf(given);
    var n := if limit < |sorted| then limit else |sorted|;
    PrefixOfNewestFirst(sorted, n);
    sorted[..n]
  }

  /** Cutting a newest-first list keeps a newest-first head no older than the tail it drops. */
  lemma PrefixOfNewestFirst(s: seq<Invoice>, n: nat)
    requires NewestFirst(s) && n <= |s|
    ensures NewestFirst(s[..n])
    ensures multiset(s[..n]) <= multiset(s)
    ensures multiset(s) - multiset(s[..n]) == multiset(s[n..])
    ensures forall x, y :: x in s[..n] && y in multiset(s[n..]) ==> y.generatedAt <= x.generatedAt
  {
    assert s == s[..n] + s[n..];
    HeadNoOlderThanTail(s, n);
  }

  lemma HeadNoOlderThanTail(s: seq<Invoice>, n: nat)
    requires NewestFirst(s) && n <= |s|
    ensures forall x, y :: x in s[..n] && y in multiset(s[n..]) ==> y.generatedAt <= x.generatedAt
  {
    forall x, y | x in s[..n] && y in multiset(s[n..])
      ensures y.generatedAt <= x.generatedAt
    {
      var i :| 0 <= i < n && s[..n][i] == x;
      assert y in s[n..];
      var j :| 0 <= j < |s| - n && s[n..][j] == y;
      assert s[i] == x && s[n + j] == y;
    }
  }
}

=== FILE: pricing.dfy ===
/**
 * The tariff record (`ConfiguracionPrecios`). Prices are `Numeric(10, 2)`
 * columns, held here as whole cents; the night window is two times of day.
 */
module Pricing {
  import opened Wrappers
  import opened Clock

  /** A monetary amount in cents; the columns carry exactly two decimals. */
  type Cents = int

  datatype PricingConfig = PricingConfig(
    id: nat,
    halfHourRate: Cents,        // precio_media_hora
    additionalHourRate: Cents,  // precio_hora_adicional
    nightRate: Cents,           // precio_nocturno
    nightStart: TimeOfDay,      // hora_inicio_nocturno
    nightEnd: TimeOfDay         // hora_fin_nocturno
  )

  const DefaultHalfHourRate: Cents := 50         // 0.50
  const DefaultAdditionalHourRate: Cents := 100  // 1.00
  const DefaultNightRate: Cents := 1000          // 10.00
  const DefaultNightStart: TimeOfDay := 19 * 3600
  const DefaultNightEnd: TimeOfDay := 7 * 3600

  /** The row the column defaults produce when only an id is assigned. */
  function DefaultConfig(id: nat): (c: PricingConfig)
    ensures c.id == id
    ensures c.halfHourRate == 50 && c.additionalHourRate == 100 && c.nightRate == 1000
    ensures c.nightStart == HourMinute(19, 0) && c.nightEnd == HourMinute(7, 0)
  {
    PricingConfig(id, DefaultHalfHourRate, DefaultAdditionalHourRate, DefaultNightRate,
                  DefaultNightStart, DefaultNightEnd)
  }

  /** The request schema admits no negative price. */
  predicate NonNegativePrices(c: PricingConfig) {
    c.halfHourRate >= 0 && c.additionalHourRate >= 0 && c.nightRate >= 0
  }

  /** The default night window runs past midnight (19:00 to 07:00 next morning). */
  lemma DefaultWindowWraps(id: nat)
    ensures DefaultConfig(id).nightStart > DefaultConfig(id).nightEnd
    ensures NonNegativePrices(DefaultConfig(id))
  {
  }

  /** The dictionary `to_dict` produces; prices as amounts, times as `str(time)`. */
  datatype ConfigDict = ConfigDict(
    id: nat,
    precioMediaHora: Cents,
    precioHoraAdicional: Cents,
    precioNocturno: Cents,
    horaInicioNocturno: string,
    horaFinNocturno: string
  )

  /** `to_dict`: every field rendered for the response. */
  function ToDict(c: PricingConfig): (d: ConfigDict)
    ensures d.id == c.id && d.precioMediaHora == c.halfHourRate
    ensures d.precioHoraAdicional == c.additionalHourRate && d.precioNocturno == c.nightRate
    ensures |d.horaInicioNocturno| == 8 && |d.horaFinNocturno| == 8
  {
    ConfigDict(c.id, c.halfHourRate, c.additionalHourRate, c.nightRate,
               TimeToString(c.nightStart), TimeToString(c.nightEnd))
  }

  /** Reads a rendered dictionary back into a record. */
  function FromDict(d: ConfigDict): Option<PricingConfig> {
    match (ParseTimeString(d.horaInicioNocturno), ParseTimeString(d.horaFinNocturno))
    case (Some(s), Some(e)) =>
      Some(PricingConfig(d.id, d.precioMediaHora, d.precioHoraAdicional, d.precioNocturno, s, e))
    case _ => None
  }

  /** `to_dict` preserves the value of every field it renders. */
  lemma ToDictRoundTrip(c: PricingConfig)
    ensures FromDict(ToDict(c)) == Some(c)
  {
    TimeToStringRoundTrip(c.nightStart);
    TimeToStringRoundTrip(c.nightEnd);
  }
}

=== FILE: store.dfy ===
/**
 * The persisted records (`VehiculoEstacionado`, `HistorialFactura`,
 * `ConfiguracionPrecios`) as three tables in insertion order, and the
 * invariants every service operation keeps.
 */
module ParkingStore {
  import opened Wrappers
  import opened Clock
  import opened Pricing
  import opened Fare
  import opened VehicleSchema
  import opened ConfigService

  /** `estado`: 'activo' or 'finalizado' (terminal). */
  datatype Status = Active | Finalized

  /** A parking record; exit time and total cost stay null until the exit. */
  datatype Vehicle = Vehicle(
    id: nat,
    plate: string,
    space: int,
    entry: Timestamp,
    exit: Option<Timestamp>,
    totalCost: Option<Cents>,
    status: Status
  )

  /** An invoice (`HistorialFactura`): a snapshot written once per exit. */
  datatype Invoice = Invoice(
    id: nat,
    vehicleId: nat,
    plate: string,
    space: int,
    entry: Timestamp,
    exit: Timestamp,
    minutes: int,
    cost: Cents,
    details: Breakdown,
    generatedAt: Timestamp
  )

  datatype Store = Store(vehicles: seq<Vehicle>, invoices: seq<Invoice>, configs: seq<PricingConfig>)

  const EmptyStore: Store := Store([], [], [])

  predicate OccupiesSpace(v: Vehicle, space: int) {
    v.status == Active && v.space == space
  }

  predicate HoldsPlate(v: Vehicle, plate: string) {
    v.status == Active && v.plate == plate
  }

  /** Some active record is in `space`. */
  predicate SpaceTaken(vs: seq<Vehicle>, space: int) {
    exists i :: 0 <= i < |vs| && OccupiesSpace(vs[i], space)
  }

  /** Some active record carries `plate`. */
  predicate PlateParked(vs: seq<Vehicle>, plate: string) {
    exists i :: 0 <= i < |vs| && HoldsPlate(vs[i], plate)
  }

  /** First active record in `space` (`filter_by(espacio_numero=…, estado='activo').first()`). */
  function FindBySpace(vs: seq<Vehicle>, space: int): (r: Option<nat>)
    ensures r.None? <==> !SpaceTaken(vs, space)
    ensures r.Some? ==> r.value < |vs| && OccupiesSpace(vs[r.value], space)
    ensures r.Some? ==> forall j :: 0 <= j < r.value ==> !OccupiesSpace(vs[j], space)
  {
    if |vs| == 0 then None
    else if OccupiesSpace(vs[0], space) then Some(0)
    else
      match FindBySpace(vs[1..], space)
      case None => None
      case Some(k) => Some(k + 1)
  }

  /** First active record with `plate` (`filter_by(placa=…, estado='activo').first()`). */
  function FindByPlate(vs: seq<Vehicle>, plate: string): (r: Option<nat>)
    ensures r.None? <==> !PlateParked(vs, plate)
    ensures r.Some? ==> r.value < |vs| && HoldsPlate(vs[r.value], plate)
    ensures r.Some? ==> forall j :: 0 <= j < r.value ==> !HoldsPlate(vs[j], plate)
  {
    if |vs| == 0 then None
    else if HoldsPlate(vs[0], plate) then Some(0)
    else
      match FindByPlate(vs[1..], plate)
      case None => None
      case Some(k) => Some(k + 1)
  }

  // ---------------------------------------------------------------------
  // Invariants
  // ---------------------------------------------------------------------

  /** Auto-increment ids 1, 2, ... in every table; nothing is ever deleted. */
  predicate Numbered(st: Store) {
    && (forall i :: 0 <= i < |st.vehicles| ==> st.vehicles[i].id == i + 1)
    && (forall i :: 0 <= i < |st.invoices| ==> st.invoices[i].id == i + 1)
    && WellNumbered(st.configs)
  }

  /** Every record is in a real space, and exit data is set exactly when it is finalised. */
  predicate RecordsConsistent(vs: seq<Vehicle>) {
    forall i :: 0 <= i < |vs| ==>
      && FirstSpace <= vs[i].space <= LastSpace
      && (vs[i].status == Active <==> vs[i].exit.None?)
      && (vs[i].status == Active <==> vs[i].totalCost.None?)
  }

  /** At most one active record per space and at most one per plate. */
  predicate Exclusive(vs: seq<Vehicle>) {
    forall i, j :: 0 <= i < |vs| && 0 <= j < |vs| && i != j && vs[i].status == Active && vs[j].status == Active
      ==> vs[i].space != vs[j].space && vs[i].plate != vs[j].plate
  }

  /** The invoice describes the finalised record it was written for. */
  predicate InvoiceMatches(inv: Invoice, v: Vehicle) {
    && v.status == Finalized
    && inv.plate == v.plate && inv.space == v.space && inv.entry == v.entry
    && v.exit == Some(inv.exit) && v.totalCost == Some(inv.cost)
  }

  /** Some invoice was written for the record with this id. */
  predicate Invoiced(invs: seq<Invoice>, id: nat) {
    exists k :: 0 <= k < |invs| && invs[k].vehicleId == id
  }

  /** Every invoice names a record and matches it. */
  predicate InvoicesMatchRecords(vs: seq<Vehicle>, invs: seq<Invoice>) {
    forall k :: 0 <= k < |invs| ==>
      1 <= invs[k].vehicleId <= |vs| && InvoiceMatches(invs[k], vs[invs[k].vehicleId - 1])
  }

  /** No record has two invoices. */
  predicate InvoicesDistinct(invs: seq<Invoice>) {
    forall k, l :: 0 <= k < |invs| && 0 <= l < |invs| && k != l ==> invs[k].vehicleId != invs[l].vehicleId
  }

  /** Every finalised record has an invoice. */
  predicate FinalizedInvoiced(vs: seq<Vehicle>, invs: seq<Invoice>) {
    forall i :: 0 <= i < |vs| && vs[i].status == Finalized ==> Invoiced(invs, i + 1)
  }

  /** Each finalised record has exactly one invoice, and each invoice matches its record. */
  predicate LedgerMatches(vs: seq<Vehicle>, invs: seq<Invoice>) {
    InvoicesMatchRecords(vs, invs) && InvoicesDistinct(invs) && FinalizedInvoiced(vs, invs)
  }

  predicate Valid(st: Store) {
    && Numbered(st)
    && RecordsConsistent(st.vehicles)
    && Exclusive(st.vehicles)
    && LedgerMatches(st.vehicles, st.invoices)
  }

  /** The empty database satisfies every invariant. */
  lemma EmptyStoreValid()
    ensures Valid(EmptyStore)
  {
  }

  /** With the invariant, the record found for a space is the only active one there. */
  lemma FindBySpaceUnique(vs: seq<Vehicle>, space: int, i: int)
    requires Exclusive(vs)
    requires 0 <= i < |vs| && OccupiesSpace(vs[i], space)
    ensures FindBySpace(vs, space) == Some(i)
  {
  }

  /** With the invariant, the record found for a plate is the only active one with it. */
  lemma FindByPlateUnique(vs: seq<Vehicle>, plate: string, i: int)
    requires Exclusive(vs)
    requires 0 <= i < |vs| && HoldsPlate(vs[i], plate)
    ensures FindByPlate(vs, plate) == Some(i)
  {
  }
}

=== FILE: text.dfy ===
/**
 * The string primitives the program relies on: decimal numerals (Python's
 * `str(int)` and `int(str)`), `str.split`, `str.strip` and `str.upper`.
 * Strings are sequences of characters; upper-casing is modelled on ASCII.
 */
module Text {
  import opened Wrappers

  // ---------------------------------------------------------------------
  // Decimal digits and numerals
  // ---------------------------------------------------------------------

  predicate IsDigit(c: char) {
    '0' <= c <= '9'
  }

  predicate AllDigits(s: string) {
    forall i :: 0 <= i < |s| ==> IsDigit(s[i])
  }

  function DigitValue(c: char): (d: nat)
    requires IsDigit(c)
    ensures d < 10
  {
    c as int - '0' as int
  }

  function DigitChar(d: nat): (c: char)
    requires d < 10
    ensures IsDigit(c) && DigitValue(c) == d
  {
    ('0' as int + d) as char
  }

  /** Value of a decimal numeral, most significant digit first. */
  function DigitsValue(s: string): nat
    requires AllDigits(s)
  {
    if |s| == 0 then 0 else 10 * DigitsValue(s[..|s| - 1]) + DigitValue(s[|s| - 1])
  }

  /** Python's `str(n)` for a non-negative integer: the shortest numeral. */
  function NatToString(n: nat): (s: string)
    ensures |s| >= 1 && AllDigits(s)
    ensures DigitsValue(s) == n
    ensures |s| > 1 ==> s[0] != '0'
  {
    if n < 10 then [DigitChar(n)]
    else
      var prefix := NatToString(n / 10);
      var s := prefix + [DigitChar(n % 10)];
      assert s[..|s| - 1] == prefix;
      s
  }

  /** Python's `str(i)` for any integer: a minus sign before negative values. */
  function IntToString(i: int): (s: string)
    ensures |s| >= 1
  {
    if i < 0 then "-" + NatToString(-i) else NatToString(i)
  }

  /** A numeral as `str(n)` writes it: digits, with no leading zero unless it is `"0"`. */
  predicate IsCanonicalNumeral(s: string) {
    |s| >= 1 && AllDigits(s) && (|s| > 1 ==> s[0] != '0')
  }

  /**
   * Reads back exactly what `IntToString` writes: a canonical numeral, or a
   * minus sign before a canonical numeral other than `"0"`.
   */
  function ParseSigned(s: string): Option<int> {
    if |s| > 0 && s[0] == '-' then
      (if IsCanonicalNumeral(s[1..]) && s[1..] != "0" then Some(-(DigitsValue(s[1..]) as int)) else None)
    else if IsCanonicalNumeral(s) then Some(DigitsValue(s))
    else None
  }

  /** `IntToString` loses nothing: parsing its output gives the integer back. */
  lemma IntToStringRoundTrip(i: int)
    ensures ParseSigned(IntToString(i)) == Some(i)
  {
    if i < 0 {
      var s := IntToString(i);
      assert s[1..] == NatToString(-i);
      assert DigitsValue("0") == 0;
    }
  }

  /** A numeral that starts with a non-zero digit has a non-zero value. */
  lemma {:induction false} LeadingDigitPositive(s: string)
    requires |s| >= 1 && AllDigits(s) && s[0] != '0'
    ensures DigitsValue(s) >= 1
    decreases |s|
  {
    if |s| > 1 {
      LeadingDigitPositive(s[..|s| - 1]);
    }
  }

  /** `str(n)` is the only canonical numeral whose value is `n`. */
  lemma {:induction false} CanonicalNumeralUnique(s: string)
    requires IsCanonicalNumeral(s)
    ensures s == NatToString(DigitsValue(s))
    decreases |s|
  {
    var c := s[|s| - 1];
    var p := s[..|s| - 1];
    var d := DigitValue(c);
    assert DigitChar(d) == c;
    assert s == p + [c];
    if |s| > 1 {
      LeadingDigitPositive(p);
      CanonicalNumeralUnique(p);
      var v := DigitsValue(s);
      assert v == 10 * DigitsValue(p) + d;
      assert v / 10 == DigitsValue(p) && v % 10 == d;
    } else {
      assert p == "";
    }
  }

  /** `IntToString` writes the only text `ParseSigned` reads as `i`. */
  lemma ParseSignedUnique(s: string, i: int)
    requires ParseSigned(s) == Some(i)
    ensures s == IntToString(i)
  {
    if |s| > 0 && s[0] == '-' {
      var t := s[1..];
      CanonicalNumeralUnique(t);
      if |t| == 1 {
        assert t == [t[0]];
      }
      LeadingDigitPositive(t);
      assert s == "-" + t;
    } else {
      CanonicalNumeralUnique(s);
    }
  }

  // ---------------------------------------------------------------------
  // str.split(sep)
  // ---------------------------------------------------------------------

  /** Number of occurrences of `c` in `s`. */
  function Count(s: string, c: char): nat {
    if |s| == 0 then 0
    else Count(s[..|s| - 1], c) + (if s[|s| - 1] == c then 1 else 0)
  }

  /** Python's `s.split(sep)` for a one-character separator: always at least one part. */
  function Split(s: string, sep: char): (parts: seq<string>)
    ensures |parts| == Count(s, sep) + 1
    ensures forall i :: 0 <= i < |parts| ==> sep !in parts[i]
  {
    if |s| == 0 then [""]
    else
      var init := Split(s[..|s| - 1], sep);
      var c := s[|s| - 1];
      if c == sep then init + [""]
      else init[..|init| - 1] + [init[|init| - 1] + [c]]
  }

  /** A text without the separator splits into itself alone. */
  lemma {:induction false} SplitNoSep(s: string, sep: char)
    requires sep !in s
    ensures Split(s, sep) == [s]
    decreases |s|
  {
    if |s| > 0 {
      SplitNoSep(s[..|s| - 1], sep);
      assert s == s[..|s| - 1] + [s[|s| - 1]];
    }
  }

  /** The text after the last separator becomes the last part. */
  lemma {:induction false} SplitAppendNoSep(x: string, y: string, sep: char)
    requires sep !in y
    ensures Split(x + [sep] + y, sep) == Split(x, sep) + [y]
    decreases |y|
  {
    var s := x + [sep] + y;
    if |y| == 0 {
      assert s[..|s| - 1] == x;
    } else {
      var y0 := y[..|y| - 1];
      assert s[..|s| - 1] == x + [sep] + y0;
      SplitAppendNoSep(x, y0, sep);
      assert y == y0 + [y[|y| - 1]];
    }
  }

  // ---------------------------------------------------------------------
  // str.strip() and str.upper()
  // ---------------------------------------------------------------------

  /** Python's `str.isspace` on one character. */
  predicate IsSpace(c: char) {
    var k := c as int;
    || k == 0x20 || 0x09 <= k <= 0x0D || 0x1C <= k <= 0x1F
    || k == 0x85 || k == 0xA0 || k == 0x1680 || 0x2000 <= k <= 0x200A
    || k == 0x2028 || k == 0x2029 || k == 0x202F || k == 0x205F || k == 0x3000
  }

  /** Number of whitespace characters at the start of `s`. */
  function LeadingSpaces(s: string): (n: nat)
    ensures n <= |s|
    ensures forall i :: 0 <= i < n ==> IsSpace(s[i])
    ensures n < |s| ==> !IsSpace(s[n])
  {
    if |s| > 0 && IsSpace(s[0]) then 1 + LeadingSpaces(s[1..]) else 0
  }

  /** Number of whitespace characters at the end of `s`. */
  function TrailingSpaces(s: string): (n: nat)
    ensures n <= |s|
    ensures forall i :: |s| - n <= i < |s| ==> IsSpace(s[i])
    ensures n < |s| ==> !IsSpace(s[|s| - n - 1])
  {
    if |s| > 0 && IsSpace(s[|s| - 1]) then 1 + TrailingSpaces(s[..|s| - 1]) else 0
  }

  /**
   * Python's `s.strip()`: the slice of `s` that is left once the whitespace
   * on either side is cut away; it neither starts nor ends with whitespace.
   */
  function Strip(s: string): (r: string)
    ensures LeadingSpaces(s) + |r| <= |s|
    ensures r == s[LeadingSpaces(s)..LeadingSpaces(s) + |r|]
    ensures forall i :: LeadingSpaces(s) + |r| <= i < |s| ==> IsSpace(s[i])
    ensures |r| > 0 ==> !IsSpace(r[0]) && !IsSpace(r[|r| - 1])
  {
    var a := LeadingSpaces(s);
    if a == |s| then ""
    else
      var n := TrailingSpaces(s);
      assert !IsSpace(s[a]);
      s[a..|s| - n]
  }

  /** Text that neither starts nor ends with whitespace is its own strip. */
  lemma StripOfNonBlankEnds(s: string)
    requires |s| > 0 ==> !IsSpace(s[0]) && !IsSpace(s[|s| - 1])
    ensures Strip(s) == s
  {
    if |s| > 0 {
      assert LeadingSpaces(s) == 0;
      assert TrailingSpaces(s) == 0;
    }
  }

  /** Stripping twice is stripping once. */
  lemma StripIdempotent(s: string)
    ensures Strip(Strip(s)) == Strip(s)
  {
    StripOfNonBlankEnds(Strip(s));
  }

  function UpperChar(c: char): char {
    if 'a' <= c <= 'z' then (c as int - 32) as char else c
  }

  /** Python's `s.upper()` on ASCII letters; every other character is kept. */
  function Upper(s: string): (r: string)
    ensures |r| == |s|
    ensures forall i :: 0 <= i < |s| ==> r[i] == UpperChar(s[i])
  {
    seq(|s|, i requires 0 <= i < |s| => UpperChar(s[i]))
  }

  // ---------------------------------------------------------------------
  // int(str)
  // ---------------------------------------------------------------------

  /** Digits with single underscores strictly between digits, as `int()` accepts. */
  predicate IsUnderscoredNumeral(s: string) {
    && |s| > 0 && IsDigit(s[0]) && IsDigit(s[|s| - 1])
    && (forall i :: 0 <= i < |s| ==> IsDigit(s[i]) || s[i] == '_')
    && (forall i :: 0 <= i < |s| - 1 && s[i] == '_' ==> IsDigit(s[i + 1]))
  }

  function DropUnderscores(s: string): (r: string)
    ensures |r| <= |s|
  {
    if |s| == 0 then ""
    else DropUnderscores(s[..|s| - 1]) + (if s[|s| - 1] == '_' then "" else [s[|s| - 1]])
  }

  lemma {:induction false} DropUnderscoresDigits(s: string)
    requires forall i :: 0 <= i < |s| ==> IsDigit(s[i]) || s[i] == '_'
    ensures AllDigits(DropUnderscores(s))
    decreases |s|
  {
    if |s| > 0 {
      DropUnderscoresDigits(s[..|s| - 1]);
    }
  }

  lemma {:induction false} DropUnderscoresOfDigits(s: string)
    requires AllDigits(s)
    ensures DropUnderscores(s) == s
    decreases |s|
  {
    if |s| > 0 {
      DropUnderscoresOfDigits(s[..|s| - 1]);
      assert s == s[..|s| - 1] + [s[|s| - 1]];
    }
  }

  /**
   * Whitespace `int()` skips around a numeral. It first maps every non-ASCII
   * character `str.isspace` accepts to a space and keeps ASCII characters as
   * they are, then skips only ASCII blanks (space and `\t\n\v\f\r`). The
   * separators U+001C to U+001F pass `str.isspace` but are not skipped.
   */
  predicate IsIntSpace(c: char) {
    IsSpace(c) && !(0x1C <= c as int <= 0x1F)
  }

  /** Number of characters `int()` skips at the start of `s`. */
  function IntLeading(s: string): (n: nat)
    ensures n <= |s|
    ensures forall i :: 0 <= i < n ==> IsIntSpace(s[i])
    ensures n < |s| ==> !IsIntSpace(s[n])
  {
    if |s| > 0 && IsIntSpace(s[0]) then 1 + IntLeading(s[1..]) else 0
  }

  /** Number of characters `int()` skips at the end of `s`. */
  function IntTrailing(s: string): (n: nat)
    ensures n <= |s|
    ensures forall i :: |s| - n <= i < |s| ==> IsIntSpace(s[i])
    ensures n < |s| ==> !IsIntSpace(s[|s| - n - 1])
  {
    if |s| > 0 && IsIntSpace(s[|s| - 1]) then 1 + IntTrailing(s[..|s| - 1]) else 0
  }

  /** `s` without the whitespace `int()` skips at either end. */
  function TrimForInt(s: string): (r: string)
    ensures IntLeading(s) + |r| <= |s|
    ensures r == s[IntLeading(s)..IntLeading(s) + |r|]
    ensures forall i :: IntLeading(s) + |r| <= i < |s| ==> IsIntSpace(s[i])
    ensures |r| > 0 ==> !IsIntSpace(r[0]) && !IsIntSpace(r[|r| - 1])
  {
    var a := IntLeading(s);
    if a == |s| then ""
    else
      var n := IntTrailing(s);
      assert !IsIntSpace(s[a]);
      s[a..|s| - n]
  }

  /**
   * Python's `int(s)` on text: the whitespace `int()` skips is ignored at
   * either end, then one optional sign and an underscored numeral.
   * Non-ASCII digits are not modelled.
   */
  function PyInt(s: string): Option<int> {
    SignedNumeral(TrimForInt(s))
  }

  /** A text with no skippable character at either end is kept whole. */
  lemma NoIntSpaceAtEnds(s: string)
    requires |s| > 0 && !IsIntSpace(s[0]) && !IsIntSpace(s[|s| - 1])
    ensures TrimForInt(s) == s
  {
    assert IntLeading(s) == 0;
    assert IntTrailing(s) == 0;
  }

  /** The information separator U+001C is not skipped, so `int("\x1c7")` fails. */
  lemma SeparatorNotSkipped()
    ensures IsSpace('\U{1C}')
    ensures PyInt("\U{1C}7").None?
  {
    assert !IsIntSpace('\U{1C}') && !IsIntSpace('7');
    NoIntSpaceAtEnds("\U{1C}7");
  }

  /** One optional sign followed by an underscored numeral. */
  function SignedNumeral(t: string): Option<int> {
    if |t| == 0 then None
    else
      var body := if t[0] == '-' || t[0] == '+' then t[1..] else t;
      match UnderscoredValue(body)
      case None => None
      case Some(v) => Some(if t[0] == '-' then -(v as int) else v as int)
  }

  /** The value of an underscored numeral, or `None` if `s` is not one. */
  function UnderscoredValue(s: string): (r: Option<nat>)
    ensures AllDigits(s) && |s| > 0 ==> r == Some(DigitsValue(s))
  {
    if !IsUnderscoredNumeral(s) then None
    else
      DropUnderscoresDigits(s);
      if AllDigits(s) then DropUnderscoresOfDigits(s); Some(DigitsValue(DropUnderscores(s)))
      else Some(DigitsValue(DropUnderscores(s)))
  }

  /** A plain numeral with no whitespace or sign is read as its decimal value. */
  lemma PyIntOfNumeral(s: string)
    requires |s| > 0 && AllDigits(s)
    ensures PyInt(s) == Some(DigitsValue(s))
  {
    NoIntSpaceAtEnds(s);
    assert s[0] != '-' && s[0] != '+';
  }
}

=== FILE: vehicle_schema.dfy ===
/**
 * Request schemas for vehicle entry and exit (`VehiculoEntrada`,
 * `VehiculoSalida`): plate normalisation and the field bounds.
 */
module VehicleSchema {
  import opened Wrappers
  import opened Text

  const MinPlateLength: int := 1
  const MaxPlateLength: int := 20
  const FirstSpace: int := 1
  const LastSpace: int := 15

  predicate IsLowerAscii(c: char) {
    'a' <= c <= 'z'
  }

  /** Position in the raw text where the normalised plate begins: the count of leading blanks. */
  function PlateStart(raw: string): nat {
    LeadingSpaces(Upper(raw))
  }

  /**
   * `validar_placa`: `v.upper().strip()`. The result is the upper-cased
   * input with the whitespace on either side cut away: a slice starting at
   * the first non-blank character, everything outside it blank, and no
   * lower-case ASCII letter left.
   */
  function NormalizePlate(raw: string): (plate: string)
    ensures |plate| <= |raw|
    ensures PlateStart(raw) + |plate| <= |raw|
    ensures forall i :: 0 <= i < |plate| ==> plate[i] == UpperChar(raw[PlateStart(raw) + i])
    ensures forall i :: 0 <= i < |raw| && !(PlateStart(raw) <= i < PlateStart(raw) + |plate|) ==>
      IsSpace(raw[i])
    ensures |plate| > 0 ==> !IsSpace(plate[0]) && !IsSpace(plate[|plate| - 1])
    ensures forall i :: 0 <= i < |plate| ==> !IsLowerAscii(plate[i])
  {
    var u := Upper(raw);
    var p := Strip(u);
    UpperHasNoLower(raw);
    NoLowerInSlice(u, LeadingSpaces(u), LeadingSpaces(u) + |p|);
    StripOfUpper(raw);
    p
  }

  /** Upper-casing keeps blanks blank and non-blanks non-blank, so strip cuts the same places. */
  lemma StripOfUpper(raw: string)
    ensures forall i :: 0 <= i < |Strip(Upper(raw))| ==>
      Strip(Upper(raw))[i] == UpperChar(raw[PlateStart(raw) + i])
    ensures forall i :: 0 <= i < |raw| && !(PlateStart(raw) <= i < PlateStart(raw) + |Strip(Upper(raw))|) ==>
      IsSpace(raw[i])
  {
    StripKeepsUpperChars(raw);
    StripCutsOnlyBlanks(raw);
  }

  lemma StripKeepsUpperChars(raw: string)
    ensures forall i :: 0 <= i < |Strip(Upper(raw))| ==>
      Strip(Upper(raw))[i] == UpperChar(raw[PlateStart(raw) + i])
  {
    var u := Upper(raw);
    var a := LeadingSpaces(u);
    var p := Strip(u);
    assert p == u[a..a + |p|];
    forall i | 0 <= i < |p|
      ensures p[i] == UpperChar(raw[a + i])
    {
      assert p[i] == u[a + i];
    }
  }

  lemma StripCutsOnlyBlanks(raw: string)
    ensures forall i :: 0 <= i < |raw| && !(PlateStart(raw) <= i < PlateStart(raw) + |Strip(Upper(raw))|) ==>
      IsSpace(raw[i])
  {
    var u := Upper(raw);
    var a := LeadingSpaces(u);
    var n := |Strip(u)|;
    forall i | 0 <= i < |raw| && !(a <= i < a + n)
      ensures IsSpace(raw[i])
    {
      assert IsSpace(u[i]);
      UpperKeepsSpace(raw[i]);
    }
  }

  /** A character that upper-cases to a blank was that blank. */
  lemma UpperKeepsSpace(c: char)
    requires IsSpace(UpperChar(c))
    ensures IsSpace(c)
  {
  }

  lemma UpperHasNoLower(raw: string)
    ensures forall i :: 0 <= i < |Upper(raw)| ==> !IsLowerAscii(Upper(raw)[i])
  {
  }

  lemma NoLowerInSlice(u: string, a: nat, b: nat)
    requires a <= b <= |u|
    requires forall i :: 0 <= i < |u| ==> !IsLowerAscii(u[i])
    ensures forall i :: 0 <= i < b - a ==> !IsLowerAscii(u[a..b][i])
  {
    forall i | 0 <= i < b - a
      ensures !IsLowerAscii(u[a..b][i])
    {
      assert u[a..b][i] == u[a + i];
    }
  }

  /** A plate already in canonical form (no blanks, no lower case) is left as it is. */
  lemma NormalizeCanonical(raw: string)
    requires forall i :: 0 <= i < |raw| ==> !IsSpace(raw[i]) && !IsLowerAscii(raw[i])
    ensures NormalizePlate(raw) == raw
  {
    var u := Upper(raw);
    assert u == raw;
    if |u| > 0 {
      assert LeadingSpaces(u) == 0;
      assert TrailingSpaces(u) == 0;
    }
  }

  /** Normalising twice is normalising once, so the service's second pass is harmless. */
  lemma NormalizePlateIdempotent(raw: string)
    ensures NormalizePlate(NormalizePlate(raw)) == NormalizePlate(raw)
  {
    var p := NormalizePlate(raw);
    var u := Upper(p);
    assert u == p by {
      assert forall i :: 0 <= i < |p| ==> u[i] == UpperChar(p[i]) == p[i];
    }
    StripIdempotent(Upper(raw));
  }

  /** A field the schema rejects. */
  datatype FieldError = PlateLength | SpaceRange

  /** A validated entry request; `es_nocturno` defaults to false. */
  datatype EntryRequest = EntryRequest(plate: string, space: int, isNight: bool)

  predicate PlateLengthOk(raw: string) {
    MinPlateLength <= |raw| <= MaxPlateLength
  }

  predicate SpaceOk(space: int) {
    FirstSpace <= space <= LastSpace
  }

  /**
   * `VehiculoEntrada`: the raw plate must have 1..20 characters (checked
   * before normalisation), the space must lie in 1..15; every failing field
   * is reported, in declaration order.
   */
  function ValidateEntry(raw: string, space: int, isNight: Option<bool>): (r: Result<EntryRequest, seq<FieldError>>)
    ensures r.Ok? <==> PlateLengthOk(raw) && SpaceOk(space)
    ensures r.Ok? ==> r.value.plate == NormalizePlate(raw) && r.value.space == space
    ensures r.Ok? ==> (r.value.isNight <==> isNight == Some(true))
    ensures r.Err? ==> (PlateLength in r.error <==> !PlateLengthOk(raw))
    ensures r.Err? ==> (SpaceRange in r.error <==> !SpaceOk(space))
  {
    var errors := (if PlateLengthOk(raw) then [] else [PlateLength])
                + (if SpaceOk(space) then [] else [SpaceRange]);
    if |errors| == 0 then
      Ok(EntryRequest(NormalizePlate(raw), space, match isNight case Some(b) => b case None => false))
    else Err(errors)
  }

  /** `VehiculoSalida`: the same length bound and normalisation on the plate alone. */
  function ValidateExit(raw: string): (r: Result<string, seq<FieldError>>)
    ensures r.Ok? <==> PlateLengthOk(raw)
    ensures r.Ok? ==> r.value == NormalizePlate(raw)
    ensures r.Err? ==> r.error == [PlateLength]
  {
    if PlateLengthOk(raw) then Ok(NormalizePlate(raw)) else Err([PlateLength])
  }

  /**
   * The length bound applies to the raw text, so a plate of blanks passes the
   * schema and reaches the service as the empty plate.
   */
  lemma BlankPlateExample()
    ensures ValidateExit("   ") == Ok("")
  {
    var u := Upper("   ");
    assert u == "   ";
    assert LeadingSpaces(u) == 3;
  }

  /** Lower case is folded and surrounding blanks are cut. */
  lemma MixedCasePlateExample()
    ensures ValidateExit(" abc1 ") == Ok("ABC1")
  {
    UpperExample();
    StripExample();
  }

  lemma UpperExample()
    ensures Upper(" abc1 ") == " ABC1 "
  {
  }

  lemma StripExample()
    ensures Strip(" ABC1 ") == "ABC1"
  {
    var v := " ABC1 ";
    assert LeadingSpaces(v) == 1 by {
      assert v[1..] == "ABC1 ";
      assert !IsSpace('A');
    }
    assert TrailingSpaces(v) == 1 by {
      assert v[..5] == " ABC1";
      assert !IsSpace('1');
    }
    assert v[1..5] == "ABC1";
  }

  /** A space outside 1..15 or an empty plate is refused by the schema. */
  lemma EntryBoundsExamples()
    ensures ValidateExit("").Err?
    ensures ValidateEntry("XYZ", 16, None) == Err([SpaceRange])
    ensures ValidateEntry("", 0, None) == Err([PlateLength, SpaceRange])
    ensures ValidateEntry("XYZ", 15, None) == Ok(EntryRequest("XYZ", 15, false))
  {
    SpaceTooHighExample();
    BothFieldsExample();
    LastSpaceExample();
  }

  lemma SpaceTooHighExample()
    ensures ValidateEntry("XYZ", 16, None) == Err([SpaceRange])
  {
    assert [] + [SpaceRange] == [SpaceRange];
  }

  lemma BothFieldsExample()
    ensures ValidateEntry("", 0, None) == Err([PlateLength, SpaceRange])
  {
    assert [PlateLength] + [SpaceRange] == [PlateLength, SpaceRange];
  }

  lemma LastSpaceExample()
    ensures ValidateEntry("XYZ", 15, None) == Ok(EntryRequest("XYZ", 15, false))
  {
    NormalizeCanonical("XYZ");
  }
}

=== FILE: vehicle_service.dfy ===
/**
 * The occupancy state machine (`VehiculoService`): the 15-space view, entry
 * with its ordered guards, exit with fee and invoice, and the side-effect
 * free estimate. The clock is the `now` parameter.
 */
module VehicleService {
  import opened Wrappers
  import opened Clock
  import opened Pricing
  import opened Fare
  import opened VehicleSchema
  import opened ConfigService
  import opened ParkingStore

  // ---------------------------------------------------------------------
  // obtener_espacios
  // ---------------------------------------------------------------------

  /** One slot of the occupancy view. */
  datatype SpaceView = SpaceView(number: int, occupied: bool, plate: Option<string>, entry: Option<Timestamp>)

  function ViewOf(vs: seq<Vehicle>, space: int): (s: SpaceView)
    ensures s.number == space
    ensures s.occupied <==> SpaceTaken(vs, space)
    ensures s.occupied ==>
      exists j :: 0 <= j < |vs| && OccupiesSpace(vs[j], space)
        && s.plate == Some(vs[j].plate) && s.entry == Some(vs[j].entry)
    ensures !s.occupied ==> s.plate.None? && s.entry.None?
  {
    match FindBySpace(vs, space)
    case None => SpaceView(space, false, None, None)
    case Some(k) => SpaceView(space, true, Some(vs[k].plate), Some(vs[k].entry))
  }

  /**
   * `obtener_espacios`: exactly one view per space 1..15, in order; a space
   * is occupied exactly when an active record is in it, whose plate and entry
   * time the view shows; a free space shows neither.
   */
  function Spaces(vs: seq<Vehicle>): (r: seq<SpaceView>)
    ensures |r| == LastSpace
    ensures forall i :: 0 <= i < |r| ==> r[i].number == i + 1
    ensures forall i :: 0 <= i < |r| ==> (r[i].occupied <==> SpaceTaken(vs, i + 1))
    ensures forall i :: 0 <= i < |r| ==> r[i].occupied ==>
      exists j :: 0 <= j < |vs| && OccupiesSpace(vs[j], i + 1)
        && r[i].plate == Some(vs[j].plate) && r[i].entry == Some(vs[j].entry)
    ensures forall i :: 0 <= i < |r| && !r[i].occupied ==> r[i].plate.None? && r[i].entry.None?
  {
    seq(LastSpace, i requires 0 <= i < LastSpace => ViewOf(vs, i + 1))
  }

  // ---------------------------------------------------------------------
  // registrar_entrada
  // ---------------------------------------------------------------------

  datatype EntryError =
    | InvalidSpace                                   // space outside 1..15
    | SpaceOccupied(space: int)                      // the space has an active record
    | PlateAlreadyParked(plate: string, space: int)  // the plate is active elsewhere

  datatype Entered = Entered(store: Store, vehicle: Vehicle)

  /**
   * `registrar_entrada(placa, espacio_numero)` at time `now`. The guards run in
   * order: space range, space free, plate not already parked. On success
   * exactly one active record is appended and nothing else changes.
   */
  function RegisterEntry(st: Store, rawPlate: string, space: int, now: Timestamp): (r: Result<Entered, EntryError>)
    ensures !SpaceOk(space) ==> r == Err(InvalidSpace)
    ensures SpaceOk(space) && SpaceTaken(st.vehicles, space) ==> r == Err(SpaceOccupied(space))
    ensures SpaceOk(space) && !SpaceTaken(st.vehicles, space) && PlateParked(st.vehicles, NormalizePlate(rawPlate)) ==>
      && r.Err? && r.error.PlateAlreadyParked? && r.error.plate == NormalizePlate(rawPlate)
      && exists i :: 0 <= i < |st.vehicles| && HoldsPlate(st.vehicles[i], NormalizePlate(rawPlate))
           && st.vehicles[i].space == r.error.space
    ensures r.Ok? <==> SpaceOk(space) && !SpaceTaken(st.vehicles, space)
                       && !PlateParked(st.vehicles, NormalizePlate(rawPlate))
    ensures r.Ok? ==>
      && r.value.vehicle == Vehicle(|st.vehicles| + 1, NormalizePlate(rawPlate), space, now, None, None, Active)
      && r.value.store == st.(vehicles := st.vehicles + [r.value.vehicle])
  {
    var plate := NormalizePlate(rawPlate);
    if !(FirstSpace <= space <= LastSpace) then Err(InvalidSpace)
    else if FindBySpace(st.vehicles, space).Some? then Err(SpaceOccupied(space))
    else match FindByPlate(st.vehicles, plate)
      case Some(k) => Err(PlateAlreadyParked(plate, st.vehicles[k].space))
      case None =>
        var v := Vehicle(|st.vehicles| + 1, plate, space, now, None, None, Active);
        Ok(Entered(st.(vehicles := st.vehicles + [v]), v))
  }

  /** A successful entry keeps every invariant, in particular exclusivity. */
  lemma EntryPreservesValid(st: Store, rawPlate: string, space: int, now: Timestamp)
    requires Valid(st)
    requires RegisterEntry(st, rawPlate, space, now).Ok?
    ensures Valid(RegisterEntry(st, rawPlate, space, now).value.store)
  {
    var e := RegisterEntry(st, rawPlate, space, now).value;
    AppendKeepsExclusive(st.vehicles, e.vehicle);
    AppendActiveKeepsLedger(st.vehicles, st.invoices, e.vehicle);
  }

  /** A new active record in a free space, with a plate not parked, keeps exclusivity. */
  lemma AppendKeepsExclusive(vs: seq<Vehicle>, v: Vehicle)
    requires Exclusive(vs)
    requires !SpaceTaken(vs, v.space) && !PlateParked(vs, v.plate)
    ensures Exclusive(vs + [v])
  {
    var vs2 := vs + [v];
    forall i, j | 0 <= i < |vs2| && 0 <= j < |vs2| && i != j && vs2[i].status == Active && vs2[j].status == Active
      ensures vs2[i].space != vs2[j].space && vs2[i].plate != vs2[j].plate
    {
      if i == |vs| {
        assert !OccupiesSpace(vs[j], v.space) && !HoldsPlate(vs[j], v.plate);
      } else if j == |vs| {
        assert !OccupiesSpace(vs[i], v.space) && !HoldsPlate(vs[i], v.plate);
      } else {
        assert vs2[i] == vs[i] && vs2[j] == vs[j];
      }
    }
  }

  /** A new active record needs no invoice, so the ledger still matches. */
  lemma AppendActiveKeepsLedger(vs: seq<Vehicle>, invs: seq<Invoice>, v: Vehicle)
    requires LedgerMatches(vs, invs)
    requires v.status == Active
    ensures LedgerMatches(vs + [v], invs)
  {
    var vs2 := vs + [v];
    forall k | 0 <= k < |invs|
      ensures 1 <= invs[k].vehicleId <= |vs2| && InvoiceMatches(invs[k], vs2[invs[k].vehicleId - 1])
    {
      assert vs2[invs[k].vehicleId - 1] == vs[invs[k].vehicleId - 1];
    }
    forall i | 0 <= i < |vs2| && vs2[i].status == Finalized
      ensures Invoiced(invs, i + 1)
    {
      assert vs2[i] == vs[i];
    }
  }

  /** Right after an entry, the occupancy view shows the plate and entry time in that space. */
  lemma EntryShowsInSpaces(st: Store, rawPlate: string, space: int, now: Timestamp)
    requires RegisterEntry(st, rawPlate, space, now).Ok?
    ensures Spaces(RegisterEntry(st, rawPlate, space, now).value.store.vehicles)[space - 1]
         == SpaceView(space, true, Some(NormalizePlate(rawPlate)), Some(now))
  {
    var vs := RegisterEntry(st, rawPlate, space, now).value.store.vehicles;
    var n := |st.vehicles|;
    assert OccupiesSpace(vs[n], space);
    assert forall j :: 0 <= j < n ==> vs[j] == st.vehicles[j];
    assert FindBySpace(vs, space) == Some(n);
  }

  /** A second entry into a space that is taken, or with a plate that is parked, fails. */
  lemma EntryTwiceFails(st: Store, rawPlate: string, space: int, now: Timestamp, otherPlate: string, otherSpace: int, later: Timestamp)
    requires RegisterEntry(st, rawPlate, space, now).Ok?
    ensures RegisterEntry(RegisterEntry(st, rawPlate, space, now).value.store, otherPlate, space, later)
         == Err(SpaceOccupied(space))
    ensures SpaceOk(otherSpace) && NormalizePlate(otherPlate) == NormalizePlate(rawPlate) ==>
      RegisterEntry(RegisterEntry(st, rawPlate, space, now).value.store, otherPlate, otherSpace, later).Err?
  {
    var vs := RegisterEntry(st, rawPlate, space, now).value.store.vehicles;
    var n := |st.vehicles|;
    assert OccupiesSpace(vs[n], space);
    assert HoldsPlate(vs[n], NormalizePlate(rawPlate));
  }

  // ---------------------------------------------------------------------
  // registrar_salida
  // ---------------------------------------------------------------------

  datatype ExitError = VehicleNotFound

  /** What an exit returns: the updated store, record and invoice, and the elapsed-time text. */
  datatype Receipt = Receipt(store: Store, vehicle: Vehicle, invoice: Invoice, elapsed: string)

  /**
   * `registrar_salida(placa)` at time `now`: finalises the plate's active
   * record with the fee under the current tariff, and appends one invoice
   * generated at `now` that copies the record's data.
   */
  function RegisterExit(st: Store, rawPlate: string, now: Timestamp): (r: Result<Receipt, ExitError>)
    ensures r.Err? <==> !PlateParked(st.vehicles, NormalizePlate(rawPlate))
    ensures r.Err? ==> r.error == VehicleNotFound
    ensures r.Ok? ==>
      var k := FindByPlate(st.vehicles, NormalizePlate(rawPlate)).value;
      var before := st.vehicles[k];
      var fare := CalculateFare(before.entry, now, GetConfig(st.configs).config);
      var v := r.value.vehicle;
      var inv := r.value.invoice;
      && v == before.(exit := Some(now), totalCost := Some(fare.cost), status := Finalized)
      && r.value.store.vehicles == st.vehicles[k := v]
      && r.value.store.invoices == st.invoices + [inv]
      && r.value.store.configs == GetConfig(st.configs).rows
      && inv == Invoice(|st.invoices| + 1, v.id, v.plate, v.space, v.entry, now,
                        fare.minutes, fare.cost, fare.details, now)
      && r.value.elapsed == FormatDuration(fare.minutes)
  {
    var plate := NormalizePlate(rawPlate);
    match FindByPlate(st.vehicles, plate)
    case None => Err(VehicleNotFound)
    case Some(k) =>
      var fetched := GetConfig(st.configs);
      var before := st.vehicles[k];
      var fare := CalculateFare(before.entry, now, fetched.config);
      var v := before.(exit := Some(now), totalCost := Some(fare.cost), status := Finalized);
      var inv := Invoice(|st.invoices| + 1, v.id, v.plate, v.space, v.entry, now,
                         fare.minutes, fare.cost, fare.details, now);
      Ok(Receipt(Store(st.vehicles[k := v], st.invoices + [inv], fetched.rows), v, inv,
                 FormatDuration(fare.minutes)))
  }

  /** A failed exit leaves the store exactly as it was. */
  lemma ExitFailureChangesNothing(st: Store, rawPlate: string, now: Timestamp)
    requires !PlateParked(st.vehicles, NormalizePlate(rawPlate))
    ensures RegisterExit(st, rawPlate, now) == Err(VehicleNotFound)
  {
  }

  /** A successful exit keeps every invariant. */
  lemma ExitPreservesValid(st: Store, rawPlate: string, now: Timestamp)
    requires Valid(st)
    requires RegisterExit(st, rawPlate, now).Ok?
    ensures Valid(RegisterExit(st, rawPlate, now).value.store)
  {
    var rc := RegisterExit(st, rawPlate, now).value;
    var k := FindByPlate(st.vehicles, NormalizePlate(rawPlate)).value;
    GetConfigWellNumbered(st.configs);
    FinalizeKeepsValid(st, k, rc.vehicle, rc.invoice, GetConfig(st.configs).rows);
  }

  /** The store an exit writes satisfies the invariants, given what the exit writes. */
  lemma FinalizeKeepsValid(st: Store, k: nat, v: Vehicle, inv: Invoice, rows: seq<PricingConfig>)
    requires Valid(st) && WellNumbered(rows)
    requires k < |st.vehicles| && st.vehicles[k].status == Active
    requires v == st.vehicles[k].(exit := v.exit, totalCost := v.totalCost, status := Finalized)
    requires v.exit.Some? && v.totalCost.Some?
    requires inv.id == |st.invoices| + 1 && inv.vehicleId == k + 1 && InvoiceMatches(inv, v)
    ensures Valid(Store(st.vehicles[k := v], st.invoices + [inv], rows))
  {
    FinalizeKeepsRecords(st.vehicles, k, v);
    FinalizeKeepsLedger(st.vehicles, st.invoices, k, v, inv);
  }

  /** Finalising one active record keeps the ids, the record consistency and exclusivity. */
  lemma FinalizeKeepsRecords(vs: seq<Vehicle>, k: nat, v: Vehicle)
    requires RecordsConsistent(vs) && Exclusive(vs)
    requires k < |vs| && v.status == Finalized && v.exit.Some? && v.totalCost.Some?
    requires v.id == vs[k].id && v.space == vs[k].space
    ensures RecordsConsistent(vs[k := v]) && Exclusive(vs[k := v])
    ensures forall i :: 0 <= i < |vs| ==> vs[k := v][i].id == vs[i].id
  {
    var vs2 := vs[k := v];
    forall i, j | 0 <= i < |vs2| && 0 <= j < |vs2| && i != j && vs2[i].status == Active && vs2[j].status == Active
      ensures vs2[i].space != vs2[j].space && vs2[i].plate != vs2[j].plate
    {
      assert vs2[i] == vs[i] && vs2[j] == vs[j];
    }
  }

  /**
   * Finalising one active record and appending its invoice keeps the ledger
   * in step with the records: one invoice per finalised record.
   */
  lemma FinalizeKeepsLedger(vs: seq<Vehicle>, invs: seq<Invoice>, k: nat, v: Vehicle, inv: Invoice)
    requires LedgerMatches(vs, invs)
    requires k < |vs| && vs[k].status == Active
    requires inv.vehicleId == k + 1 && InvoiceMatches(inv, v)
    ensures LedgerMatches(vs[k := v], invs + [inv])
  {
    NoInvoiceForActive(vs, invs, k);
    FinalizeKeepsMatches(vs, invs, k, v, inv);
    FinalizeKeepsDistinct(invs, inv);
    FinalizeKeepsInvoiced(vs, invs, k, v, inv);
  }

  /** No invoice names a record that is still active. */
  lemma NoInvoiceForActive(vs: seq<Vehicle>, invs: seq<Invoice>, k: nat)
    requires InvoicesMatchRecords(vs, invs)
    requires k < |vs| && vs[k].status == Active
    ensures forall l :: 0 <= l < |invs| ==> invs[l].vehicleId != k + 1
  {
    forall l | 0 <= l < |invs|
      ensures invs[l].vehicleId != k + 1
    {
      assert InvoiceMatches(invs[l], vs[invs[l].vehicleId - 1]);
    }
  }

  lemma FinalizeKeepsMatches(vs: seq<Vehicle>, invs: seq<Invoice>, k: nat, v: Vehicle, inv: Invoice)
    requires InvoicesMatchRecords(vs, invs)
    requires k < |vs| && forall l :: 0 <= l < |invs| ==> invs[l].vehicleId != k + 1
    requires inv.vehicleId == k + 1 && InvoiceMatches(inv, v)
    ensures InvoicesMatchRecords(vs[k := v], invs + [inv])
  {
    var vs2 := vs[k := v];
    var invs2 := invs + [inv];
    forall l | 0 <= l < |invs2|
      ensures 1 <= invs2[l].vehicleId <= |vs2| && InvoiceMatches(invs2[l], vs2[invs2[l].vehicleId - 1])
    {
      if l < |invs| {
        assert invs2[l] == invs[l];
      }
    }
  }

  lemma FinalizeKeepsDistinct(invs: seq<Invoice>, inv: Invoice)
    requires InvoicesDistinct(invs)
    requires forall l :: 0 <= l < |invs| ==> invs[l].vehicleId != inv.vehicleId
    ensures InvoicesDistinct(invs + [inv])
  {
  }

  lemma FinalizeKeepsInvoiced(vs: seq<Vehicle>, invs: seq<Invoice>, k: nat, v: Vehicle, inv: Invoice)
    requires FinalizedInvoiced(vs, invs)
    requires k < |vs| && inv.vehicleId == k + 1
    ensures FinalizedInvoiced(vs[k := v], invs + [inv])
  {
    var vs2 := vs[k := v];
    var invs2 := invs + [inv];
    forall i | 0 <= i < |vs2| && vs2[i].status == Finalized
      ensures Invoiced(invs2, i + 1)
    {
      if i == k {
        assert invs2[|invs|].vehicleId == i + 1;
      } else {
        assert vs[i].status == Finalized;
        var l :| 0 <= l < |invs| && invs[l].vehicleId == i + 1;
        assert invs2[l].vehicleId == i + 1;
      }
    }
  }

  /** After an exit the plate and its space are free again. */
  lemma ExitFreesPlateAndSpace(st: Store, rawPlate: string, now: Timestamp)
    requires Valid(st)
    requires RegisterExit(st, rawPlate, now).Ok?
    ensures !PlateParked(RegisterExit(st, rawPlate, now).value.store.vehicles, NormalizePlate(rawPlate))
    ensures !SpaceTaken(RegisterExit(st, rawPlate, now).value.store.vehicles,
                        RegisterExit(st, rawPlate, now).value.vehicle.space)
    ensures FirstSpace <= RegisterExit(st, rawPlate, now).value.vehicle.space <= LastSpace
    ensures !Spaces(RegisterExit(st, rawPlate, now).value.store.vehicles)
               [RegisterExit(st, rawPlate, now).value.vehicle.space - 1].occupied
  {
    var rc := RegisterExit(st, rawPlate, now).value;
    var k := FindByPlate(st.vehicles, NormalizePlate(rawPlate)).value;
    var vs := rc.store.vehicles;
    assert forall i :: 0 <= i < |vs| && i != k ==> vs[i] == st.vehicles[i];
    assert RecordsConsistent(st.vehicles);
  }

  /**
   * Entering and then leaving with the same plate finalises the new record
   * with the fee for the stay between the two moments, under the tariff in
   * force, and the space shows free again.
   */
  lemma EntryThenExit(st: Store, rawPlate: string, space: int, entryTime: Timestamp, exitTime: Timestamp)
    requires Valid(st)
    requires RegisterEntry(st, rawPlate, space, entryTime).Ok?
    ensures var mid := RegisterEntry(st, rawPlate, space, entryTime).value.store;
      && RegisterExit(mid, rawPlate, exitTime).Ok?
      && RegisterExit(mid, rawPlate, exitTime).value.vehicle.id == |st.vehicles| + 1
      && RegisterExit(mid, rawPlate, exitTime).value.invoice.cost
         == CalculateFare(entryTime, exitTime, GetConfig(st.configs).config).cost
      && !Spaces(RegisterExit(mid, rawPlate, exitTime).value.store.vehicles)[space - 1].occupied
  {
    var mid := RegisterEntry(st, rawPlate, space, entryTime).value.store;
    var n := |st.vehicles|;
    var plate := NormalizePlate(rawPlate);
    assert HoldsPlate(mid.vehicles[n], plate);
    assert forall j :: 0 <= j < n ==> mid.vehicles[j] == st.vehicles[j];
    assert FindByPlate(mid.vehicles, plate) == Some(n);
    EntryPreservesValid(st, rawPlate, space, entryTime);
    ExitFreesPlateAndSpace(mid, rawPlate, exitTime);
  }

  // ---------------------------------------------------------------------
  // buscar_vehiculo
  // ---------------------------------------------------------------------

  /** What a lookup returns: the active record and the fee if it left now. */
  datatype Estimate = Estimate(vehicle: Vehicle, cost: Cents, elapsed: string, details: Breakdown)

  datatype Looked = Looked(store: Store, estimate: Estimate)

  /**
   * `buscar_vehiculo(placa)` at time `now`. It changes no vehicle or invoice;
   * the only write is the default tariff row when that table is empty.
   */
  function LookupVehicle(st: Store, rawPlate: string, now: Timestamp): (r: Result<Looked, ExitError>)
    ensures r.Err? <==> !PlateParked(st.vehicles, NormalizePlate(rawPlate))
    ensures r.Ok? ==>
      && r.value.store == st.(configs := GetConfig(st.configs).rows)
      && HoldsPlate(r.value.estimate.vehicle, NormalizePlate(rawPlate))
      && r.value.estimate.vehicle in st.vehicles
    ensures r.Ok? ==>
      && FindByPlate(st.vehicles, NormalizePlate(rawPlate)).Some?
      && r.value.estimate.vehicle == st.vehicles[FindByPlate(st.vehicles, NormalizePlate(rawPlate)).value]
    ensures r.Ok? ==>
      var fare := CalculateFare(r.value.estimate.vehicle.entry, now, GetConfig(st.configs).config);
      && r.value.estimate.cost == fare.cost
      && r.value.estimate.details == fare.details
      && ParseDuration(r.value.estimate.elapsed) == Some(fare.minutes)
  {
    var plate := NormalizePlate(rawPlate);
    match FindByPlate(st.vehicles, plate)
    case None => Err(VehicleNotFound)
    case Some(k) =>
      var fetched := GetConfig(st.configs);
      var v := st.vehicles[k];
      var fare := CalculateFare(v.entry, now, fetched.config);
      Ok(Looked(st.(configs := fetched.rows),
                Estimate(v, fare.cost, FormatDuration(fare.minutes), fare.details)))
  }

  /** With a tariff row present, a lookup leaves the whole store unchanged. */
  lemma LookupIsReadOnly(st: Store, rawPlate: string, now: Timestamp)
    requires |st.configs| > 0
    requires PlateParked(st.vehicles, NormalizePlate(rawPlate))
    ensures LookupVehicle(st, rawPlate, now).Ok?
    ensures LookupVehicle(st, rawPlate, now).value.store == st
  {
  }

  /** The estimate at a moment is exactly what an exit at that moment charges. */
  lemma EstimateMatchesExit(st: Store, rawPlate: string, now: Timestamp)
    requires PlateParked(st.vehicles, NormalizePlate(rawPlate))
    ensures LookupVehicle(st, rawPlate, now).Ok? && RegisterExit(st, rawPlate, now).Ok?
    ensures LookupVehicle(st, rawPlate, now).value.estimate.cost
         == RegisterExit(st, rawPlate, now).value.invoice.cost
    ensures LookupVehicle(st, rawPlate, now).value.estimate.elapsed
         == RegisterExit(st, rawPlate, now).value.elapsed
    ensures LookupVehicle(st, rawPlate, now).value.estimate.cost
         == CalculateFare(LookupVehicle(st, rawPlate, now).value.estimate.vehicle.entry, now,
                          GetConfig(st.configs).config).cost
  {
  }

  /** A lookup keeps every invariant. */
  lemma LookupPreservesValid(st: Store, rawPlate: string, now: Timestamp)
    requires Valid(st)
    requires LookupVehicle(st, rawPlate, now).Ok?
    ensures Valid(LookupVehicle(st, rawPlate, now).value.store)
  {
    GetConfigWellNumbered(st.configs);
  }
}

=== FILE: wrappers.dfy ===
/** Failure-carrying datatypes shared by every module of the parking-lot model. */
module Wrappers {

  /** A value that may be absent; stands for Python's `None`. */
  datatype Option<+T> = None | Some(value: T)

  /** The outcome of an operation that can raise a validation or state error. */
  datatype Result<+T, +E> = Ok(value: T) | Err(error: E)
}
